=== FILE: README.md ===
# MENUFY record store and domain model, in Dafny

This project models the business-logic core of MENUFY, a small restaurant
menu manager. That core has two parts:

- **The `Menu` store** (`app/src/business_logic/crud.py`): menu items kept as
  rows of text cells, mirrored in a CSV file. It offers `create_item`,
  `read_items`, `read_item`, `update_item` and `delete_item`, plus
  `get_menu_models`, which converts the rows into typed items.
- **The typed items and the order** (`app/src/business_logic/models.py`):
  `MenuItem` and its subclasses `Drink`, `Dessert`, `Entree` and `Appetizer`,
  each with its constructor checks, and the `Order` that collects items and
  keeps a running total.

The modules follow the source:

| module | file | contents |
|---|---|---|
| `Results` | `results.dfy` | `Option` and `Result` |
| `Numbers` | `numbers.dfy` | Python's `int()`, `float()` and `str()` on the values the store handles, with the round trips between them |
| `Models` | `models.dfy` | the item constructors and the order |
| `Crud` | `crud.dfy` | the store, its file, and the row-to-item conversion |
| `MenuProperties` | `menu_properties.dfy` | properties that relate several store calls |

How the Python program is represented:

- **Store operations.** Every store operation is a pure function from a
  `Menu` (the rows in memory plus the file contents) to a `Step`: the new
  `Menu` and either a result or the error the Python code raises. This makes
  "a failed call changes nothing" an ordinary postcondition.
- **Argument values.** Arguments that Python passes untyped (`price`,
  `calories`, `size`, and the values given to `update_item`) are a `Value`:
  None, an int, a float or a str. `int()` and `float()` return a
  `Conversion`: a number, a ValueError or a TypeError. The difference between
  the two errors matters, because `create_item` and `get_menu_models` catch
  only ValueError.
- **Floats.** A float is an exact decimal `Decimal(mantissa, exponent)`.
  `str(float)` prints its normal form, the decimal with trailing fractional
  zeros removed, keeping at least one digit after the point. So `str(2.50)` is
  "2.5" and `str(3.00)` is "3.0". The lemma `Numbers.ShowDecimalByValue` proves
  that the text depends only on the value. `Numbers.ParseShowDecimal` proves
  that `float(str(x))` has the value of `x`.
- **Rows.** A row holds the seven columns the store writes (`type`, `name`,
  `price`, `description`, `calories`, `image_path` and `size`). Each numeric
  cell, and `type`, is `Option<string>`, because the store can put None
  there.
- **The backing file.** It is a value: the rows it holds, or none if it does
  not exist. Writing it turns None cells into the empty string, which is what
  reading a CSV file gives back. `_save_items` does not write when the store
  is empty, so deleting the last row leaves the file unchanged
  (`MenuProperties.DeletedLastRowReturnsOnReload`).
- **Objects in an order.** An order holds `ItemRef`s, that is, items with an
  object identity. Python's `in` and `list.remove` compare menu items by
  identity, because the classes define no `__eq__`.

Behaviour of the code worth knowing:

- `create_item` does not check that the name is non-empty.
- A `None` price or calories makes `float()`/`int()` raise TypeError.
  `create_item` catches only ValueError, so the TypeError escapes instead of
  becoming an invalid-price or invalid-calories error.
- `get_menu_models` builds only Drink, Entree and Dessert items. Appetizer
  rows are dropped.
- `get_menu_models` skips rows whose constructor rejects them, as well as rows
  with unparsable numbers, because both raise ValueError.
- On a Drink, Entree or Dessert row, a None cell in `price`, `calories` or
  (on a Drink) `size` raises a TypeError, unless an earlier argument already
  raised ValueError. `get_menu_models` does not catch the TypeError, so the
  whole call fails. Appetizer rows and rows of other types are never
  converted, so their None cells do no harm.
- `update_item` validates an `item_type` keyword but never writes it, because
  the row's column is called `type`. A `type` keyword, and `price` and
  `calories`, are written without any check.
- `update_item` checks a Drink size with `int()`, which accepts a float such
  as 16.5, but it stores the float's `str` text "16.5". For a Drink whose
  price cell is not None, `int("16.5")` then raises ValueError in
  `get_menu_models`, which skips that Drink; with a None price, `float(None)`
  raises TypeError first and the whole call fails
  (`MenuProperties.FloatSizeDropsDrink`). The same holds for 16.0, since `str()`
  of a float always contains a point.

## Model

| member | source | states |
|---|---|---|
| Numbers.PyInt | app/src/business_logic/crud.py:73-74 | `int()` of an int is that int, of a float is the float truncated toward zero, and of text is what the integer parser reads from it. Text the parser rejects is a ValueError and None is a TypeError. |
| Numbers.PyFloat | app/src/business_logic/crud.py:65-66 | `float()` of an int or a float keeps its value, and of text is what the decimal parser reads from it. Text the parser rejects is a ValueError and None is a TypeError. |
| Numbers.Truncate | app/src/business_logic/crud.py:56 | Truncating a decimal gives the integer nearest to it on the zero side, differing from it by less than 1 and never crossing zero. |
| Numbers.StoredText | app/src/business_logic/crud.py:133 | An update stores ints and floats as their `str` text (the text `Numbers.ShowInt` and `Numbers.ShowDecimal` describe) and strings and None unchanged. Int text reads back as the same int under both `int()` and `float()`, and float text reads back as the same value. |
| Numbers.ShowInt | app/src/business_logic/crud.py:89-91 | `str()` of an int starts with '-' exactly for negatives, followed by digits with no leading zero; `str(0)` is exactly "0". |
| Numbers.Normalize | app/src/business_logic/crud.py:87 | Stripping trailing fractional zeros keeps the value and gives the normal form, which has no trailing fractional zero. |
| Numbers.NormalUnique | app/src/business_logic/crud.py:87 | Two normal decimals of the same value are the same decimal, so a float has one normal form. |
| Numbers.ShowDecimal | app/src/business_logic/crud.py:87 | `str()` of a float starts with '-' exactly for negatives, and its last digit is a zero only in the form "n.0", so no trailing fractional zero is printed. Its shape is an optional '-', integer digits without a leading zero (except a lone "0"), a point and at least one fractional digit, with no '+' and no exponent. |
| Numbers.FloatTextIsNotInt | app/src/business_logic/crud.py:158 | `int()` of the `str` text of any float, even a whole one, raises ValueError. |
| Numbers.ShowDecimalByValue | app/src/business_logic/crud.py:87 | Two decimals of the same value print the same text, as two spellings of one Python float do. |
| Numbers.ParseInt | app/src/business_logic/crud.py:74 | `int()` of text accepts exactly an optional sign followed by one or more digits. A negative result comes only from text starting with '-', and '-' never gives a positive result. |
| Numbers.ParseDecimal | app/src/business_logic/crud.py:66 | `float()` of text keeps the sign of the text and has as many fractional digits as the text has after its point. Text that `int()` accepts reads as the same integer. |
| Numbers.ParseShowInt | app/src/business_logic/crud.py:89 | `int(str(i)) == i` for every integer, so the calories and size cells read back as the numbers written. |
| Numbers.ParseShowDecimal | app/src/business_logic/crud.py:87 | `float(str(x))` has the value of `x`: it is the normal form of `x`, written with one fractional zero when `x` is whole. |
| Numbers.PadDigitsValue | app/src/business_logic/crud.py:87 | The fractional digits printed for a float, zero-padded to its exponent, have exactly that many digits and denote the fraction. |
| Models.Construct | app/src/business_logic/models.py:2-14 | The MenuItem checks run in order (empty name, then negative price, then negative calories), the first failing check is the error, and on success every field is stored as given. |
| Models.NewMenuItem | app/src/business_logic/models.py:1-14 | `MenuItem(...)` raises EmptyName, then NegativePrice, then NegativeCalories, whichever check fails first. It succeeds exactly when none fails, and then holds every field as given. |
| Models.NewDrink | app/src/business_logic/models.py:19-33 | The size is converted with `int()` first: unconvertible is a size error, then out of [8,44] is a range error. Then the MenuItem checks apply in their order. Success gives a valid Drink of the converted size holding every other field as given. |
| Models.NewDessert | app/src/business_logic/models.py:38-40 | `Dessert(...)` raises the first failing MenuItem check's error. It succeeds exactly when all pass, and then holds every field as given. |
| Models.NewEntree | app/src/business_logic/models.py:45-47 | `Entree(...)` raises the first failing MenuItem check's error. It succeeds exactly when all pass, and then holds every field as given. |
| Models.NewAppetizer | app/src/business_logic/models.py:52-54 | `Appetizer(...)` raises the first failing MenuItem check's error. It succeeds exactly when all pass, and then holds every field as given. |
| Models.ConstructorsAcceptExactlyValidItems | app/src/business_logic/models.py:1-54 | Rebuilding an item through its own class succeeds exactly when the item is valid, and then returns that same item. |
| Models.NewOrder | app/src/business_logic/models.py:60-65 | A new order has no items, empty drink, dessert and entree slots, and total 0, so the total equals the sum of its prices. |
| Models.AddItem | app/src/business_logic/models.py:67-74 | None and non-items are rejected with their own errors. An item is appended, its price is added to the total, the slots are untouched, and the total stays the sum of the prices. |
| Models.FirstOccurrence | app/src/business_logic/models.py:79-82 | The index found is that of the first element identical to the argument, and there is none exactly when the argument is absent. |
| Models.SumPricesRemove | app/src/business_logic/models.py:82-83 | Removing the element at any position takes exactly its price off the sum of the prices. |
| Models.RemoveItem | app/src/business_logic/models.py:76-83 | An empty order is an error before anything else, and an absent item is an error. Otherwise exactly the first identical occurrence is removed, its price is subtracted, and the total stays the sum of the prices. |
| Models.AddThenRemove | app/src/business_logic/models.py:67-83 | For every order, adding an item and then removing it restores the total. If the item was not already in the order, the item list is restored too. |
| Crud.FirstIndex | app/src/business_logic/crud.py:104-106 | The index found is that of the first row with the name, and there is none exactly when no row has the name. |
| Crud.Load | app/src/business_logic/crud.py:22-34 | A store opened on a missing file is empty. Otherwise it holds the file's rows. |
| Crud.Save | app/src/business_logic/crud.py:36-45 | An empty store leaves the file as it was. A non-empty one rewrites the whole file with the CSV image of every row, in order. |
| Crud.Commit | app/src/business_logic/crud.py:94-95 | After a mutation the store holds the new rows. Reopening the file then gives their CSV image, except that an empty store leaves the old file in place. |
| Crud.ReadItems | app/src/business_logic/crud.py:98-100 | `read_items` returns every row in order, and a name can be read with `read_item` exactly when it appears among them. |
| Crud.CsvImage | app/src/business_logic/crud.py:41-45 | Writing keeps the rows, their order and their names, and only turns None cells into empty text. |
| Crud.ReadItem | app/src/business_logic/crud.py:102-107 | `read_item` is None exactly when no row has the name. Otherwise it is the first row with that name. |
| Crud.CheckSize | app/src/business_logic/crud.py:53-62 | A Drink needs a size whose `int()` lies in [8,44], otherwise InvalidSize. Any other type needs no size, otherwise SizeNotAllowed. |
| Crud.CheckPrice | app/src/business_logic/crud.py:64-70 | A price passes exactly when `float()` gives a positive number. A None price is an uncaught TypeError and anything else rejected is InvalidPrice. |
| Crud.CheckCalories | app/src/business_logic/crud.py:72-78 | Calories pass exactly when `int()` gives a positive number. None is an uncaught TypeError and anything else rejected is InvalidCalories. |
| Crud.CreateItem | app/src/business_logic/crud.py:47-96 | The checks run in source order (type, size, price, calories, duplicate name) and the first failing check is the error. A create succeeds exactly when all pass, and a failure changes nothing. A success appends exactly the new row, with price, calories and Drink size as the `str` text of the converted numbers, and persists the store. |
| Crud.ApplyPatch | app/src/business_logic/crud.py:131-133 | The name and every column the keywords leave out keep their value. A supplied column receives the value, with ints and floats as their `str` text. |
| Crud.UpdateItem | app/src/business_logic/crud.py:109-136 | A missing name is NotFound. `item_type` must be a valid type and a size is allowed only when the stored type is Drink, and failures change nothing. A success rewrites only that row's supplied columns (numbers as text), keeps every name, and persists. |
| Crud.DeleteItem | app/src/business_logic/crud.py:138-145 | A missing name is NotFound and changes nothing. Otherwise exactly the first row with the name is removed, the rest keep their order, the multiset of rows loses just that row, and the store is saved. |
| Crud.ConvertRow | app/src/business_logic/crud.py:150-183 | The arguments convert in order: price, then a Drink's size, then calories. A row of another type, Appetizer included, is skipped. Otherwise the row raises exactly when the first failing conversion is a TypeError, and is skipped exactly when it is a ValueError or the constructor rejects the converted values. A built item holds the row's name, description and image, `float(price)`, `int(calories)` and a Drink's `int(size)`, and has the row's class. |
| Crud.Collect | app/src/business_logic/crud.py:149-185 | The loop fails exactly when some row raises, and then with the uncaught TypeError. Otherwise every built item's name is a key. |
| Crud.CollectEntries | app/src/business_logic/crud.py:179-180 | Every key holds an item built under that name, and no later row builds an item of the same name, so the last row wins. |
| Crud.Conversions | app/src/business_logic/crud.py:150-183 | There is one outcome per row, and every built item carries its row's name, is valid, and is a Drink, Entree or Dessert. |
| Crud.ConversionAt | app/src/business_logic/crud.py:150 | The outcome recorded for each row is that row's conversion. |
| Crud.GetMenuModels | app/src/business_logic/crud.py:147-185 | `get_menu_models` succeeds exactly when no row raises. Every converting row's name is a key. Each entry is valid, not an Appetizer, stored under its own name, and comes from the last converting row of that name. |
| MenuProperties.FirstIndexAppend | app/src/business_logic/crud.py:94 | Appending a row with a fresh name makes it the answer for its name and changes no other lookup. |
| MenuProperties.RemoveKeepsUnique | app/src/business_logic/crud.py:142 | Removing a row from a store with unique names keeps the names unique and removes that name. |
| MenuProperties.CreateThenRead | app/src/business_logic/crud.py:94-107 | After a successful create, `read_item(name)` returns the new row and every other name reads as before. |
| MenuProperties.CreateKeepsNamesUnique | app/src/business_logic/crud.py:80-82 | The duplicate-name check keeps the store's names unique across creates. |
| MenuProperties.CreatedRowReadsBack | app/src/business_logic/crud.py:84-92 | The stored price text parses back to the given price and the calories text to the given calories. A Drink's size text parses to its size and other types store no size. |
| MenuProperties.CreatedRowIsValid | app/src/business_logic/crud.py:47-92 | Every row a create stores has a valid type, a positive price and calories, and a size in range exactly on Drinks. |
| MenuProperties.CreateKeepsStoreValid | app/src/business_logic/crud.py:47-96 | Creating keeps a well-formed store (unique names, every row valid) well-formed. |
| MenuProperties.CreateFresh | app/src/business_logic/crud.py:47-96 | A create of a fresh name with accepted type, size, positive price and positive calories succeeds and appends one row with the given name and type, a price that reads back as the same value, calories written as `str(calories)`, and for a Drink a size that reads back as `int(size)`. The store stays well-formed. |
| MenuProperties.TrailingZeroPrice | app/src/business_logic/crud.py:66-87 | A price given as the text "2.50" is stored as "2.5", the text Python prints for the float 2.5. |
| MenuProperties.CokeScenario | app/src/business_logic/crud.py:54-60 | A Coke of size 4 is refused with InvalidSize and leaves the store unchanged. Size 16 is accepted and reads back with size "16". |
| MenuProperties.UpdateKeepsNamesUnique | app/src/business_logic/crud.py:131-133 | An update never changes a name, so names stay unique. |
| MenuProperties.ItemTypeNeverApplied | app/src/business_logic/crud.py:114-116 | An accepted update has the same effect with its `item_type` keyword left out. |
| MenuProperties.UpdateSkipsPriceCheck | app/src/business_logic/crud.py:130-133 | Any existing row accepts any int or float price of zero or below, stores its `str` text, and then breaks the row invariant. |
| MenuProperties.ApplyPatchIdempotent | app/src/business_logic/crud.py:131-133 | Writing the same keywords into a row a second time changes nothing more. |
| MenuProperties.RetypeToDrinkBreaksConversion | app/src/business_logic/crud.py:109-136 | Retyping a well-formed Entree created in this session (size None) to "Drink" is accepted, and afterwards `get_menu_models` fails for the whole store. |
| MenuProperties.RetypeReloadedEntreeDropsRow | app/src/business_logic/crud.py:109-136 | Retyping a well-formed Entree reloaded from the file (size "") to "Drink" is accepted too, but `int("")` raises ValueError, so `get_menu_models` skips that row and succeeds or fails exactly as it did before. |
| MenuProperties.FloatSizeDropsDrink | app/src/business_logic/crud.py:119-133 | A float Drink size that truncates into 8..44 is accepted and stored as its `str` text. If the row's price cell is not None, the row is then skipped when converted; if it is None, the conversion raises TypeError. |
| MenuProperties.DeleteKeepsNamesUnique | app/src/business_logic/crud.py:138-145 | Deleting keeps names unique. |
| MenuProperties.DeleteThenRead | app/src/business_logic/crud.py:140-142 | In a store with unique names, a deleted name is no longer found. |
| MenuProperties.DeleteKeepsStoreValid | app/src/business_logic/crud.py:138-145 | Deleting keeps a well-formed store well-formed. |
| MenuProperties.ValidRowConverts | app/src/business_logic/crud.py:150-183 | A well-formed row never raises. It builds an item exactly when it is not an Appetizer and has a name, and that item has the row's price, calories and Drink size. |
| MenuProperties.CollectDistinct | app/src/business_logic/crud.py:179-180 | When no row raises and built names are distinct, every built item is found under its name. |
| MenuProperties.ValidStoreConversions | app/src/business_logic/crud.py:150-183 | In a well-formed store no row raises, exactly the named non-Appetizer rows build an item, and each built item carries its row's name. |
| MenuProperties.CollectCoversRows | app/src/business_logic/crud.py:149-185 | Collecting such outcomes gives each named non-Appetizer row's item under its name. |
| MenuProperties.ValidStoreModels | app/src/business_logic/crud.py:147-185 | On a well-formed store `get_menu_models` succeeds and has an entry for every named non-Appetizer row: that row's conversion. |
| MenuProperties.CollectOnlyFromRows | app/src/business_logic/crud.py:149-185 | Every collected key names a non-Appetizer row with a non-empty name. |
| MenuProperties.ValidStoreModelsOnlyFromRows | app/src/business_logic/crud.py:147-185 | On a well-formed store every entry of `get_menu_models` comes from a named non-Appetizer row. |
| MenuProperties.ReloadAfterWrite | app/src/business_logic/crud.py:26-45 | Reopening the store after any write of a non-empty store gives back the written rows, with None cells as empty text, and the same names. |
| MenuProperties.CsvImageKeepsStoreValid | app/src/business_logic/crud.py:36-45 | Writing and reloading keeps a well-formed store well-formed, and a second round trip changes nothing. |
| MenuProperties.DeletedLastRowReturnsOnReload | app/src/business_logic/crud.py:36-39 | Deleting the only row succeeds and empties the store, but the file keeps the row, so reopening the store finds it again. |

## Left out

- File I/O: the backing file is a value holding its rows. Paths, missing
  permissions, OS errors and CSV quoting are not modelled. The file is
  assumed to hold the seven columns the store writes, so the KeyError branch
  of `get_menu_models` (a row without one of those columns) cannot arise.
- The diagnostic `print` in `get_menu_models` is left out; it has no effect
  on the result.
- The `__str__` methods of the item and order classes are left out. They only
  format text for display.
- The console and graphical front ends under `app/src/ui` are not part of
  this model.
- Floating point: prices are exact decimals. Binary rounding, the exponent
  notation `str()` uses for very large or very small floats, and `inf`/`nan`
  are not modelled. For the same reason an order's total is exact, where
  Python accumulates rounding error.
- Numbers.PyInt, Numbers.PyFloat: they accept optionally signed ASCII
  decimal digits (with one point, for `float()`). Python also accepts
  surrounding whitespace, underscores, exponents and the special float names.
  It also accepts digits from other scripts (`int("١٦")` is 16 and
  `float("２.５")` is 2.5), and `int()` and `float()` of bools and other
  objects. Those inputs are not modelled and read here as a ValueError.
- Numbers.ShowDecimal: the printed text is the shortest decimal for the exact
  value. Python prints the shortest text that reads back as the same binary
  float, which agrees for decimals of up to 15 significant digits.
- Crud.CreateItem: the name, description and image path are strings. Python
  would also accept other objects there and store them unconverted.
- Crud.UpdateItem: a `description` or `image_path` keyword is a string, so
  the int/float-to-text rule is modelled only on the columns that take a
  `Value` (`type`, `price`, `calories`, `size`).
- Models.Order: ids stand for object identity. The model assumes that one id
  always names the same item.
- Crud.ReadItems, Crud.ReadItem, Crud.CreateItem, Crud.UpdateItem: Python
  returns the stored dict itself (and `read_items` the store's own list), so
  a caller who edits the result changes the store without any check and
  without saving. The model returns values, and a caller cannot change the
  store that way.

=== FILE: crud.dfy ===
/**
 * The `Menu` record store: an ordered sequence of string-valued rows, the
 * checks that guard creating, updating and deleting them, the image of the
 * rows in the backing CSV file, and the conversion of rows into typed items.
 */
module Crud {
  import opened Results
  import opened Numbers
  import opened Models

  const ValidTypes: seq<string> := ["Entree", "Drink", "Dessert", "Appetizer"]
  // The store keeps its own drink-size bounds, separate from the Drink class's.
  const MinDrinkSize: int := 8
  const MaxDrinkSize: int := 44

  /**
   * One record, keyed by the standard header `type, name, price, description,
   * calories, image_path, size`. A cell holding Python's None is `None`.
   */
  datatype Row = Row(kind: Option<string>, name: string, price: Option<string>, description: string,
                     calories: Option<string>, imagePath: string, size: Option<string>)

  /** The store: its rows in order, and the rows held by the backing file (None while no file exists). */
  datatype Menu = Menu(items: seq<Row>, file: Option<seq<Row>>)

  /** The errors the store raises: its ValueErrors, and a TypeError that escapes its handlers. */
  datatype MenuError = InvalidType | InvalidSize | SizeNotAllowed | InvalidPrice | InvalidCalories
                     | DuplicateName | NotFound | UncaughtTypeError

  /** What a call leaves behind: the store afterwards, and what the call returned or raised. */
  datatype Step<+T> = Step(menu: Menu, outcome: Result<T, MenuError>)

  // ---------------------------------------------------------------------
  // Names

  function Names(rows: seq<Row>): (ns: seq<string>)
    ensures |ns| == |rows|
    ensures forall i :: 0 <= i < |rows| ==> ns[i] == rows[i].name
  {
    seq(|rows|, i requires 0 <= i < |rows| => rows[i].name)
  }

  /** No two rows share a name. */
  predicate UniqueNames(rows: seq<Row>) {
    forall i, j :: 0 <= i < j < |rows| ==> rows[i].name != rows[j].name
  }

  /** The index of the first row with the given name: the loop every lookup in the store runs. */
  function FirstIndex(rows: seq<Row>, name: string): (r: Option<nat>)
    ensures r.None? <==> name !in Names(rows)
    ensures r.Some? ==> r.value < |rows| && rows[r.value].name == name
    ensures r.Some? ==> forall j :: 0 <= j < r.value ==> rows[j].name != name
  {
    if |rows| == 0 then None
    else if rows[0].name == name then Some(0)
    else match FirstIndex(rows[1..], name)
      case None =>
        assert Names(rows) == [rows[0].name] + Names(rows[1..]);
        None
      case Some(i) =>
        assert rows[i + 1] == rows[1..][i];
        assert forall j :: 1 <= j < i + 1 ==> rows[j] == rows[1..][j - 1];
        assert rows[i + 1].name in Names(rows) by { assert Names(rows)[i + 1] == rows[i + 1].name; }
        Some(i + 1)
  }

  // ---------------------------------------------------------------------
  // The backing file

  /** The CSV writer prints None as an empty field, which reads back as "". */
  function CsvCell(c: Option<string>): Option<string> {
    Some(c.GetOr(""))
  }

  function CsvRow(row: Row): Row {
    row.(kind := CsvCell(row.kind), price := CsvCell(row.price), calories := CsvCell(row.calories),
         size := CsvCell(row.size))
  }

  /** The rows as the file holds them after a write. */
  function CsvImage(rows: seq<Row>): (f: seq<Row>)
    ensures |f| == |rows|
    ensures Names(f) == Names(rows)
    ensures forall i :: 0 <= i < |rows| ==> f[i] == CsvRow(rows[i])
  {
    seq(|rows|, i requires 0 <= i < |rows| => CsvRow(rows[i]))
  }

  /** `_save_items`: rewrites the whole file, except that an empty store leaves the file as it was. */
  function Save(items: seq<Row>, file: Option<seq<Row>>): (f: Option<seq<Row>>)
    ensures |items| == 0 ==> f == file
    ensures |items| > 0 ==> f == Some(CsvImage(items))
    ensures |items| > 0 ==> |f.value| == |items| && Names(f.value) == Names(items)
  {
    if |items| == 0 then file else Some(CsvImage(items))
  }

  /** The store after a mutation: the new rows, persisted, so that reopening a non-empty store gives them back. */
  function Commit(m: Menu, items: seq<Row>): (m': Menu)
    ensures m'.items == items
    ensures |items| == 0 ==> m'.file == m.file
    ensures |items| > 0 ==> Load(m'.file).items == CsvImage(items)
  {
    Menu(items, Save(items, m.file))
  }

  /** `Menu(csv_path)`: the rows of the backing file, or none when the file does not exist. */
  function Load(file: Option<seq<Row>>): (m: Menu)
    ensures file.None? ==> |m.items| == 0
    ensures file.Some? ==> m.items == file.value
    ensures m.file == file
  {
    Menu(file.GetOr([]), file)
  }

  // ---------------------------------------------------------------------
  // Reading

  /** `read_items`: every row in order, so a name can be read exactly when it appears here. */
  function ReadItems(m: Menu): (rows: seq<Row>)
    ensures rows == m.items
    ensures forall name :: ReadItem(m, name).Some? <==> name in Names(rows)
  {
    m.items
  }

  /** `read_item`: the first row with that name, or None. */
  function ReadItem(m: Menu, name: string): (r: Option<Row>)
    ensures r.None? <==> name !in Names(m.items)
    ensures r.Some? ==> r.value.name == name
    ensures r.Some? ==> exists i :: 0 <= i < |m.items| && m.items[i] == r.value
                                    && forall j :: 0 <= j < i ==> m.items[j].name != name
  {
    match FirstIndex(m.items, name)
    case None => None
    case Some(i) => Some(m.items[i])
  }

  // ---------------------------------------------------------------------
  // Validation shared by create and update

  /** `int(size)` succeeds and lands in the store's drink-size range. */
  predicate SizeInRange(size: Value) {
    PyInt(size).Converted? && MinDrinkSize <= PyInt(size).v <= MaxDrinkSize
  }

  /** `float(price)` succeeds with a positive number. */
  predicate PriceAccepted(price: Value) {
    PyFloat(price).Converted? && RealOf(PyFloat(price).v) > 0.0
  }

  /** `int(calories)` succeeds with a positive number. */
  predicate CaloriesAccepted(calories: Value) {
    PyInt(calories).Converted? && PyInt(calories).v > 0
  }

  /** The size rule of `create_item`: a Drink needs an in-range size, anything else no size at all. */
  function CheckSize(itemType: string, size: Value): (r: Result<Option<int>, MenuError>)
    ensures itemType == "Drink" ==> (r.Success? <==> SizeInRange(size))
    ensures itemType == "Drink" && r.Success? ==> r.value == Some(PyInt(size).v)
    ensures itemType != "Drink" ==> (r.Success? <==> size.NoneValue?)
    ensures itemType != "Drink" && r.Success? ==> r.value.None?
    ensures r.Failure? ==> r.error == (if itemType == "Drink" then InvalidSize else SizeNotAllowed)
  {
    if itemType == "Drink" then
      match PyInt(size)
      case Converted(n) =>
        if !(MinDrinkSize <= n <= MaxDrinkSize) then Failure(InvalidSize) else Success(Some(n))
      case _ => Failure(InvalidSize)
    else if !size.NoneValue? then Failure(SizeNotAllowed)
    else Success(None)
  }

  /** The price rule: only ValueError is caught, so a None price raises TypeError. */
  function CheckPrice(price: Value): (r: Result<Decimal, MenuError>)
    ensures r.Success? <==> PriceAccepted(price)
    ensures r.Success? ==> r.value == PyFloat(price).v
    ensures r.Failure? ==> r.error == (if price.NoneValue? then UncaughtTypeError else InvalidPrice)
  {
    match PyFloat(price)
    case TypeError => Failure(UncaughtTypeError)
    case ValueError => Failure(InvalidPrice)
    case Converted(d) => if RealOf(d) <= 0.0 then Failure(InvalidPrice) else Success(d)
  }

  /** The calories rule: only ValueError is caught, so None calories raise TypeError. */
  function CheckCalories(calories: Value): (r: Result<int, MenuError>)
    ensures r.Success? <==> CaloriesAccepted(calories)
    ensures r.Success? ==> r.value == PyInt(calories).v
    ensures r.Failure? ==> r.error == (if calories.NoneValue? then UncaughtTypeError else InvalidCalories)
  {
    match PyInt(calories)
    case TypeError => Failure(UncaughtTypeError)
    case ValueError => Failure(InvalidCalories)
    case Converted(c) => if c <= 0 then Failure(InvalidCalories) else Success(c)
  }

  /** The type and size arguments of a create pass their checks. */
  predicate TypeAndSizeAccepted(itemType: string, size: Value) {
    itemType in ValidTypes && (if itemType == "Drink" then SizeInRange(size) else size.NoneValue?)
  }

  // ---------------------------------------------------------------------
  // Mutations

  /**
   * `create_item`: checks type, size, price, calories and name uniqueness in
   * that order, and only then appends the new row (numbers stored as their
   * `str` text) and persists.
   */
  function CreateItem(m: Menu, itemType: string, name: string, price: Value, description: string,
                      calories: Value, imagePath: string, size: Value): (s: Step<Row>)
    ensures s.outcome.Failure? ==> s.menu == m
    ensures itemType !in ValidTypes ==> s.outcome == Failure(InvalidType)
    ensures itemType == "Drink" && !SizeInRange(size) ==> s.outcome == Failure(InvalidSize)
    ensures itemType in ValidTypes && itemType != "Drink" && !size.NoneValue? ==>
              s.outcome == Failure(SizeNotAllowed)
    ensures TypeAndSizeAccepted(itemType, size) && !PriceAccepted(price) ==>
              s.outcome == Failure(if price.NoneValue? then UncaughtTypeError else InvalidPrice)
    ensures TypeAndSizeAccepted(itemType, size) && PriceAccepted(price) && !CaloriesAccepted(calories) ==>
              s.outcome == Failure(if calories.NoneValue? then UncaughtTypeError else InvalidCalories)
    ensures (TypeAndSizeAccepted(itemType, size) && PriceAccepted(price) && CaloriesAccepted(calories)
             && name in Names(m.items)) ==> s.outcome == Failure(DuplicateName)
    ensures s.outcome.Success? <==>
              TypeAndSizeAccepted(itemType, size) && PriceAccepted(price) && CaloriesAccepted(calories)
              && name !in Names(m.items)
    ensures s.outcome.Success? ==> s.menu.items == m.items + [s.outcome.value]
    ensures s.outcome.Success? ==> s.outcome.value.name == name && s.outcome.value.kind == Some(itemType)
    ensures s.outcome.Success? ==> s.outcome.value.description == description
                                   && s.outcome.value.imagePath == imagePath
    ensures s.outcome.Success? ==>
              && s.outcome.value.price == Some(ShowDecimal(PyFloat(price).v))
              && s.outcome.value.calories == Some(ShowInt(PyInt(calories).v))
              && s.outcome.value.size == (if itemType == "Drink" then Some(ShowInt(PyInt(size).v)) else None)
    ensures s.outcome.Success? ==> s.menu.file == Some(CsvImage(s.menu.items))
  {
    if itemType !in ValidTypes then Step(m, Failure(InvalidType))
    else match CheckSize(itemType, size)
      case Failure(e) => Step(m, Failure(e))
      case Success(sz) =>
        match CheckPrice(price)
        case Failure(e) => Step(m, Failure(e))
        case Success(p) =>
          match CheckCalories(calories)
          case Failure(e) => Step(m, Failure(e))
          case Success(c) =>
            if name in Names(m.items) then Step(m, Failure(DuplicateName))
            else
              var sizeText := if sz.Some? then Some(ShowInt(sz.value)) else None;
              var row := Row(Some(itemType), name, Some(ShowDecimal(p)), description, Some(ShowInt(c)),
                             imagePath, sizeText);
              Step(Commit(m, m.items + [row]), Success(row))
  }

  /**
   * The keyword arguments of `update_item`, one per key it can act on; None
   * means the keyword was not given. `itemType` is validated but names no
   * column; `name` cannot be given because it is the positional parameter.
   */
  datatype Patch = Patch(itemType: Option<Value>, kind: Option<Value>, price: Option<Value>,
                         description: Option<string>, calories: Option<Value>,
                         imagePath: Option<string>, size: Option<Value>)

  /** `kwargs['item_type'] in VALID_TYPES`: only a str can equal one of the type names. */
  predicate IsTypeValue(v: Value) {
    v.StrValue? && v.s in ValidTypes
  }

  /**
   * Overwrites the columns the patch supplies, writing ints and floats as
   * their `str` text; the name and every column the patch leaves out keep
   * their value.
   */
  function ApplyPatch(row: Row, p: Patch): (r: Row)
    ensures r.name == row.name
    ensures p.kind.None? ==> r.kind == row.kind
    ensures p.price.None? ==> r.price == row.price
    ensures p.description.None? ==> r.description == row.description
    ensures p.calories.None? ==> r.calories == row.calories
    ensures p.imagePath.None? ==> r.imagePath == row.imagePath
    ensures p.size.None? ==> r.size == row.size
    ensures p.kind.Some? ==> r.kind == StoredText(p.kind.value)
    ensures p.price.Some? ==> r.price == StoredText(p.price.value)
    ensures p.description.Some? ==> r.description == p.description.value
    ensures p.calories.Some? ==> r.calories == StoredText(p.calories.value)
    ensures p.imagePath.Some? ==> r.imagePath == p.imagePath.value
    ensures p.size.Some? ==> r.size == StoredText(p.size.value)
  {
    Row(if p.kind.Some? then StoredText(p.kind.value) else row.kind,
        row.name,
        if p.price.Some? then StoredText(p.price.value) else row.price,
        p.description.GetOr(row.description),
        if p.calories.Some? then StoredText(p.calories.value) else row.calories,
        p.imagePath.GetOr(row.imagePath),
        if p.size.Some? then StoredText(p.size.value) else row.size)
  }

  /** The patch passes `update_item`'s checks against the stored row. */
  predicate PatchAccepted(row: Row, p: Patch) {
    && (p.itemType.Some? ==> IsTypeValue(p.itemType.value))
    && (p.size.Some? ==> row.kind == Some("Drink") && SizeInRange(p.size.value))
  }

  /**
   * `update_item`: finds the first row with the name, checks `item_type` and
   * `size` (the latter against the stored type), then overwrites the supplied
   * columns without further checks and persists.
   */
  function UpdateItem(m: Menu, name: string, p: Patch): (s: Step<Row>)
    ensures s.outcome.Failure? ==> s.menu == m
    ensures name !in Names(m.items) ==> s.outcome == Failure(NotFound)
    ensures s.outcome.Success? <==> name in Names(m.items) && PatchAccepted(ReadItem(m, name).value, p)
    ensures name in Names(m.items) && p.itemType.Some? && !IsTypeValue(p.itemType.value) ==>
              s.outcome == Failure(InvalidType)
    ensures name in Names(m.items) && (p.itemType.Some? ==> IsTypeValue(p.itemType.value)) && p.size.Some? ==>
              (if ReadItem(m, name).value.kind != Some("Drink") then s.outcome == Failure(SizeNotAllowed)
               else !SizeInRange(p.size.value) ==> s.outcome == Failure(InvalidSize))
    ensures s.outcome.Success? ==>
              var i := FirstIndex(m.items, name).value;
              s.menu.items == m.items[i := s.outcome.value]
    ensures s.outcome.Success? ==> s.outcome.value.name == name && Names(s.menu.items) == Names(m.items)
    ensures s.outcome.Success? ==>
              var old_ := ReadItem(m, name).value;
              var new_ := s.outcome.value;
              && new_.kind == (if p.kind.Some? then StoredText(p.kind.value) else old_.kind)
              && new_.price == (if p.price.Some? then StoredText(p.price.value) else old_.price)
              && new_.calories == (if p.calories.Some? then StoredText(p.calories.value) else old_.calories)
              && new_.size == (if p.size.Some? then StoredText(p.size.value) else old_.size)
              && new_.description == p.description.GetOr(old_.description)
              && new_.imagePath == p.imagePath.GetOr(old_.imagePath)
    ensures s.outcome.Success? ==> s.menu.file == Some(CsvImage(s.menu.items))
  {
    match FirstIndex(m.items, name)
    case None => Step(m, Failure(NotFound))
    case Some(i) =>
      var row := m.items[i];
      if p.itemType.Some? && !IsTypeValue(p.itemType.value) then Step(m, Failure(InvalidType))
      else if p.size.Some? && row.kind == Some("Drink") && !SizeInRange(p.size.value) then Step(m, Failure(InvalidSize))
      else if p.size.Some? && row.kind != Some("Drink") then Step(m, Failure(SizeNotAllowed))
      else
        var row' := ApplyPatch(row, p);
        var items := m.items[i := row'];
        assert Names(items) == Names(m.items);
        Step(Commit(m, items), Success(row'))
  }

  /** `delete_item`: removes the first row with the name and persists. */
  function DeleteItem(m: Menu, name: string): (s: Step<bool>)
    ensures s.outcome.Failure? ==> s.menu == m
    ensures s.outcome.Failure? <==> name !in Names(m.items)
    ensures s.outcome.Failure? ==> s.outcome.error == NotFound
    ensures s.outcome.Success? ==> s.outcome.value
    ensures s.outcome.Success? ==>
              var i := FirstIndex(m.items, name).value;
              s.menu.items == m.items[..i] + m.items[i + 1..]
    ensures s.outcome.Success? ==>
              |s.menu.items| == |m.items| - 1
              && multiset(s.menu.items) + multiset{ReadItem(m, name).value} == multiset(m.items)
    ensures s.outcome.Success? ==> s.menu.file == Save(s.menu.items, m.file)
  {
    match FirstIndex(m.items, name)
    case None => Step(m, Failure(NotFound))
    case Some(i) =>
      var items := m.items[..i] + m.items[i + 1..];
      assert m.items == m.items[..i] + [m.items[i]] + m.items[i + 1..];
      assert multiset(m.items) == multiset(m.items[..i]) + multiset{m.items[i]} + multiset(m.items[i + 1..]);
      assert ReadItem(m, name) == Some(m.items[i]);
      Step(Commit(m, items), Success(true))
  }

  // ---------------------------------------------------------------------
  // Conversion to typed items

  /** What `get_menu_models` does with one row. */
  datatype RowConversion = Built(item: Item) | Skipped | Crashed

  /** A cell as the Python value the conversion functions receive. */
  function CellValue(c: Option<string>): Value {
    match c
    case None => NoneValue
    case Some(s) => StrValue(s)
  }

  /** The row's type is one `get_menu_models` builds an item for. */
  predicate BuildsKind(row: Row) {
    row.kind == Some("Drink") || row.kind == Some("Entree") || row.kind == Some("Dessert")
  }

  /** `float(item['price'])`. */
  function RowPrice(row: Row): Conversion<Decimal> {
    PyFloat(CellValue(row.price))
  }

  /** `int(item['size'])`, which only a Drink row evaluates. */
  function RowSize(row: Row): Conversion<int> {
    PyInt(CellValue(row.size))
  }

  /** `int(item['calories'])`. */
  function RowCalories(row: Row): Conversion<int> {
    PyInt(CellValue(row.calories))
  }

  /** A constructor's ValueError is caught and the row skipped. */
  function FromConstructor(r: Result<Item, ItemError>): RowConversion {
    match r
    case Success(it) => Built(it)
    case Failure(_) => Skipped
  }

  /**
   * One iteration of `get_menu_models`: the arguments are converted in
   * keyword order (price, then size for a Drink, then calories); a ValueError
   * skips the row, a TypeError escapes. Only Drink, Entree and Dessert rows
   * produce an item.
   */
  function ConvertRow(row: Row): (r: RowConversion)
    ensures r.Built? ==> r.item.name == row.name && r.item.description == row.description
                             && r.item.imagePath == row.imagePath && ValidItem(r.item)
    ensures r.Crashed? <==>
              BuildsKind(row)
              && (|| RowPrice(row).TypeError?
                  || (RowPrice(row).Converted? && row.kind == Some("Drink") && RowSize(row).TypeError?)
                  || (RowPrice(row).Converted? && (row.kind == Some("Drink") ==> RowSize(row).Converted?)
                      && RowCalories(row).TypeError?))
    ensures r.Skipped? <==>
              || !BuildsKind(row)
              || RowPrice(row).ValueError?
              || (RowPrice(row).Converted? && row.kind == Some("Drink") && RowSize(row).ValueError?)
              || (RowPrice(row).Converted? && (row.kind == Some("Drink") ==> RowSize(row).Converted?)
                  && RowCalories(row).ValueError?)
              || (RowPrice(row).Converted? && (row.kind == Some("Drink") ==> RowSize(row).Converted?)
                  && RowCalories(row).Converted?
                  && !(&& row.name != "" && RealOf(RowPrice(row).v) >= 0.0 && RowCalories(row).v >= 0
                       && (row.kind == Some("Drink") ==> MinSize <= RowSize(row).v <= MaxSize)))
    ensures r.Built? ==>
              && BuildsKind(row) && RowPrice(row).Converted? && RowCalories(row).Converted?
              && (row.kind == Some("Drink") ==> RowSize(row).Converted?)
              && r.item.price == RealOf(RowPrice(row).v) && r.item.calories == RowCalories(row).v
              && (row.kind == Some("Drink") ==> r.item.variant == Drink(RowSize(row).v))
    ensures r.Built? ==>
              || (row.kind == Some("Drink") && r.item.variant.Drink?)
              || (row.kind == Some("Entree") && r.item.variant == Entree)
              || (row.kind == Some("Dessert") && r.item.variant == Dessert)
    ensures row.kind != Some("Drink") && row.kind != Some("Entree") && row.kind != Some("Dessert") ==>
              r == Skipped
    ensures r.Crashed? ==> row.price.None? || row.calories.None? || (row.kind == Some("Drink") && row.size.None?)
  {
    if row.kind == Some("Drink") then
      match PyFloat(CellValue(row.price))
      case TypeError => Crashed
      case ValueError => Skipped
      case Converted(p) =>
        match PyInt(CellValue(row.size))
        case TypeError => Crashed
        case ValueError => Skipped
        case Converted(n) =>
          match PyInt(CellValue(row.calories))
          case TypeError => Crashed
          case ValueError => Skipped
          case Converted(c) =>
            FromConstructor(NewDrink(row.name, RealOf(p), row.description, IntValue(n), c, row.imagePath))
    else if row.kind == Some("Entree") || row.kind == Some("Dessert") then
      match PyFloat(CellValue(row.price))
      case TypeError => Crashed
      case ValueError => Skipped
      case Converted(p) =>
        match PyInt(CellValue(row.calories))
        case TypeError => Crashed
        case ValueError => Skipped
        case Converted(c) =>
          if row.kind == Some("Entree")
          then FromConstructor(NewEntree(row.name, RealOf(p), row.description, c, row.imagePath))
          else FromConstructor(NewDessert(row.name, RealOf(p), row.description, c, row.imagePath))
    else Skipped
  }

  /**
   * The loop of `get_menu_models` over the per-row outcomes: a map from name to
   * item built in row order, so a later item with the same name wins; the
   * whole call raises as soon as one row raises TypeError.
   */
  function Collect(cs: seq<RowConversion>): (r: Result<map<string, Item>, MenuError>)
    ensures r.Success? <==> forall i :: 0 <= i < |cs| ==> !cs[i].Crashed?
    ensures r.Failure? ==> r.error == UncaughtTypeError
    ensures r.Success? ==> forall i :: 0 <= i < |cs| && cs[i].Built? ==> cs[i].item.name in r.value
  {
    if |cs| == 0 then Success(map[])
    else
      var init := cs[..|cs| - 1];
      assert forall i :: 0 <= i < |init| ==> init[i] == cs[i];
      match Collect(init)
      case Failure(e) => Failure(e)
      case Success(acc) =>
        match cs[|cs| - 1]
        case Crashed => Failure(UncaughtTypeError)
        case Skipped => Success(acc)
        case Built(it) => Success(acc[it.name := it])
  }

  /** Every collected entry is the last built item of its name, stored under that name. */
  lemma {:induction false} CollectEntries(cs: seq<RowConversion>)
    requires Collect(cs).Success?
    ensures forall k :: k in Collect(cs).value ==>
              exists i :: 0 <= i < |cs| && cs[i] == Built(Collect(cs).value[k]) && Collect(cs).value[k].name == k
                          && forall j :: i < j < |cs| ==> !(cs[j].Built? && cs[j].item.name == k)
  {
    if |cs| > 0 {
      var init := cs[..|cs| - 1];
      assert forall i :: 0 <= i < |init| ==> init[i] == cs[i];
      assert Collect(init).Success?;
      CollectEntries(init);
      var acc := Collect(init).value;
      var r := Collect(cs).value;
      var last := |cs| - 1;
      forall k | k in r
        ensures exists i :: 0 <= i < |cs| && cs[i] == Built(r[k]) && r[k].name == k
                            && forall j :: i < j < |cs| ==> !(cs[j].Built? && cs[j].item.name == k)
      {
        if cs[last].Built? && cs[last].item.name == k {
          assert cs[last] == Built(r[k]);
        } else {
          assert k in acc && r[k] == acc[k];
          var i :| 0 <= i < |init| && init[i] == Built(acc[k]) && acc[k].name == k
                   && forall j :: i < j < |init| ==> !(init[j].Built? && init[j].item.name == k);
          assert cs[i] == Built(r[k]);
        }
      }
    }
  }

  /** The outcome of converting each row. */
  function Conversions(rows: seq<Row>): (cs: seq<RowConversion>)
    ensures |cs| == |rows|
    ensures forall i :: 0 <= i < |rows| && cs[i].Built? ==>
              && cs[i].item.name == rows[i].name && ValidItem(cs[i].item)
              && cs[i].item.variant != Appetizer && cs[i].item.variant != Base
  {
    if |rows| == 0 then []
    else
      var init := Conversions(rows[..|rows| - 1]);
      assert forall i :: 0 <= i < |rows| - 1 ==> rows[..|rows| - 1][i] == rows[i];
      init + [ConvertRow(rows[|rows| - 1])]
  }

  /** The outcome at each index is the conversion of the row at that index. */
  lemma {:induction false} ConversionAt(rows: seq<Row>, i: nat)
    requires i < |rows|
    ensures Conversions(rows)[i] == ConvertRow(rows[i])
  {
    if i < |rows| - 1 {
      ConversionAt(rows[..|rows| - 1], i);
    }
  }

  /**
   * `get_menu_models`: every entry is keyed by its item's name and comes from a
   * Drink, Entree or Dessert row, the last such row of that name; every row
   * that converts has an entry; and the call fails only if some row raises TypeError.
   */
  function GetMenuModels(m: Menu): (r: Result<map<string, Item>, MenuError>)
    ensures |Conversions(m.items)| == |m.items|
    ensures r.Success? <==> forall i :: 0 <= i < |m.items| ==> !Conversions(m.items)[i].Crashed?
    ensures r.Failure? ==> r.error == UncaughtTypeError
    ensures r.Success? ==> forall i :: 0 <= i < |m.items| && Conversions(m.items)[i].Built? ==>
              m.items[i].name in r.value
    ensures r.Success? ==> forall k :: k in r.value ==>
              && r.value[k].name == k
              && r.value[k].variant != Appetizer && r.value[k].variant != Base
              && ValidItem(r.value[k])
    ensures r.Success? ==> forall k :: k in r.value ==>
              exists i :: 0 <= i < |m.items| && Conversions(m.items)[i] == Built(r.value[k])
                          && forall j :: i < j < |m.items| ==> !(Conversions(m.items)[j].Built? && m.items[j].name == k)
  {
    var cs := Conversions(m.items);
    if Collect(cs).Success? then CollectEntries(cs); Collect(cs) else Collect(cs)
  }
}

=== FILE: menu_properties.dfy ===
/**
 * Properties of the `Menu` store that relate several calls: name uniqueness,
 * reading back what was written, the row invariant that `create_item`
 * establishes and `update_item` does not, conversion of well-formed rows, and
 * what survives a write to and a read from the backing file.
 */
module MenuProperties {
  import opened Results
  import opened Numbers
  import opened Models
  import opened Crud

  /**
   * The record invariant the store is meant to keep: a known type, a positive
   * price, positive calories, and an in-range size exactly on Drinks (other
   * types have no size, or the empty text the file gives back for None).
   */
  predicate RowValid(row: Row) {
    && row.kind.Some? && row.kind.value in ValidTypes
    && row.price.Some? && ParseDecimal(row.price.value).Some? && RealOf(ParseDecimal(row.price.value).value) > 0.0
    && row.calories.Some? && ParseInt(row.calories.value).Some? && ParseInt(row.calories.value).value > 0
    && if row.kind == Some("Drink")
       then row.size.Some? && ParseInt(row.size.value).Some?
            && MinDrinkSize <= ParseInt(row.size.value).value <= MaxDrinkSize
       else row.size == None || row.size == Some("")
  }

  predicate StoreValid(rows: seq<Row>) {
    UniqueNames(rows) && forall i :: 0 <= i < |rows| ==> RowValid(rows[i])
  }

  // ---------------------------------------------------------------------
  // Lookups in sequences of rows

  /** The first index is determined by its defining property. */
  lemma FirstIndexIs(rows: seq<Row>, name: string, k: nat)
    requires k < |rows| && rows[k].name == name
    requires forall j :: 0 <= j < k ==> rows[j].name != name
    ensures FirstIndex(rows, name) == Some(k)
  {
    assert Names(rows)[k] == name;
    var k' := FirstIndex(rows, name).value;
    assert !(k' < k) && !(k < k');
  }

  /** Appending a row with a fresh name makes it the answer for its name and changes no other answer. */
  lemma FirstIndexAppend(rows: seq<Row>, row: Row, name: string)
    requires row.name !in Names(rows)
    ensures FirstIndex(rows + [row], name) == if name == row.name then Some(|rows|) else FirstIndex(rows, name)
  {
    var t := rows + [row];
    if name == row.name {
      forall j | 0 <= j < |rows| ensures t[j].name != name {
        assert Names(rows)[j] == rows[j].name;
      }
      FirstIndexIs(t, name, |rows|);
    } else if name in Names(rows) {
      var k := FirstIndex(rows, name).value;
      FirstIndexIs(t, name, k);
    } else {
      forall j | 0 <= j < |t| ensures Names(t)[j] != name {
        if j < |rows| { assert Names(rows)[j] == t[j].name; }
      }
    }
  }

  lemma AppendKeepsUnique(rows: seq<Row>, row: Row)
    requires UniqueNames(rows) && row.name !in Names(rows)
    ensures UniqueNames(rows + [row])
  {
    var t := rows + [row];
    forall i, j | 0 <= i < j < |t|
      ensures t[i].name != t[j].name
    {
      if j == |rows| {
        assert Names(rows)[i] == t[i].name;
      }
    }
  }

  /** Position i of s with position k removed. */
  lemma RemoveAtIndex<T>(s: seq<T>, k: nat, i: nat)
    requires k < |s| && i < |s| - 1
    ensures (s[..k] + s[k + 1..])[i] == s[if i < k then i else i + 1]
  {
  }

  lemma RemoveKeepsUnique(rows: seq<Row>, k: nat)
    requires UniqueNames(rows) && k < |rows|
    ensures UniqueNames(rows[..k] + rows[k + 1..])
    ensures rows[k].name !in Names(rows[..k] + rows[k + 1..])
  {
    var t := rows[..k] + rows[k + 1..];
    forall i, j | 0 <= i < j < |t|
      ensures t[i].name != t[j].name
    {
      RemoveAtIndex(rows, k, i);
      RemoveAtIndex(rows, k, j);
    }
    forall i | 0 <= i < |t|
      ensures Names(t)[i] != rows[k].name
    {
      RemoveAtIndex(rows, k, i);
    }
  }

  // ---------------------------------------------------------------------
  // create_item

  /** After a successful create, `read_item(name)` returns the new row, and every other lookup is as before. */
  lemma CreateThenRead(m: Menu, itemType: string, name: string, price: Value, description: string,
                       calories: Value, imagePath: string, size: Value, other: string)
    requires CreateItem(m, itemType, name, price, description, calories, imagePath, size).outcome.Success?
    ensures var s := CreateItem(m, itemType, name, price, description, calories, imagePath, size);
            ReadItem(s.menu, name) == Some(s.outcome.value)
    ensures var s := CreateItem(m, itemType, name, price, description, calories, imagePath, size);
            other != name ==> ReadItem(s.menu, other) == ReadItem(m, other)
  {
    var s := CreateItem(m, itemType, name, price, description, calories, imagePath, size);
    FirstIndexAppend(m.items, s.outcome.value, name);
    FirstIndexAppend(m.items, s.outcome.value, other);
  }

  /** A create never introduces a second row with an existing name. */
  lemma CreateKeepsNamesUnique(m: Menu, itemType: string, name: string, price: Value, description: string,
                               calories: Value, imagePath: string, size: Value)
    requires UniqueNames(m.items)
    ensures UniqueNames(CreateItem(m, itemType, name, price, description, calories, imagePath, size).menu.items)
  {
    var s := CreateItem(m, itemType, name, price, description, calories, imagePath, size);
    if s.outcome.Success? {
      AppendKeepsUnique(m.items, s.outcome.value);
    }
  }

  /**
   * The row a create stores reads back as the arguments it was given:
   * `float(row['price'])` is the price, `int(row['calories'])` the calories,
   * and `int(row['size'])` the Drink size (None for other types).
   */
  lemma CreatedRowReadsBack(m: Menu, itemType: string, name: string, price: Value, description: string,
                            calories: Value, imagePath: string, size: Value)
    requires CreateItem(m, itemType, name, price, description, calories, imagePath, size).outcome.Success?
    ensures var row := CreateItem(m, itemType, name, price, description, calories, imagePath, size).outcome.value;
            && row.price.Some? && ParseDecimal(row.price.value).Some?
            && RealOf(ParseDecimal(row.price.value).value) == RealOf(PyFloat(price).v)
            && row.calories == Some(ShowInt(PyInt(calories).v))
            && ParseInt(row.calories.value) == Some(PyInt(calories).v)
            && (itemType == "Drink" ==> row.size.Some? && ParseInt(row.size.value) == Some(PyInt(size).v))
            && (itemType != "Drink" ==> row.size.None?)
  {
    ParseShowDecimal(PyFloat(price).v);
    ParseShowInt(PyInt(calories).v);
    if itemType == "Drink" {
      ParseShowInt(PyInt(size).v);
    }
  }

  /** Every row a create stores satisfies the record invariant. */
  lemma CreatedRowIsValid(m: Menu, itemType: string, name: string, price: Value, description: string,
                          calories: Value, imagePath: string, size: Value)
    requires CreateItem(m, itemType, name, price, description, calories, imagePath, size).outcome.Success?
    ensures RowValid(CreateItem(m, itemType, name, price, description, calories, imagePath, size).outcome.value)
  {
    CreatedRowReadsBack(m, itemType, name, price, description, calories, imagePath, size);
  }

  lemma AppendKeepsStoreValid(rows: seq<Row>, row: Row)
    requires StoreValid(rows) && RowValid(row) && row.name !in Names(rows)
    ensures StoreValid(rows + [row])
  {
    AppendKeepsUnique(rows, row);
    assert forall i :: 0 <= i < |rows| ==> (rows + [row])[i] == rows[i];
  }

  /** Creating keeps a well-formed store well-formed. */
  lemma CreateKeepsStoreValid(m: Menu, itemType: string, name: string, price: Value, description: string,
                              calories: Value, imagePath: string, size: Value)
    requires StoreValid(m.items)
    ensures StoreValid(CreateItem(m, itemType, name, price, description, calories, imagePath, size).menu.items)
  {
    var s := CreateItem(m, itemType, name, price, description, calories, imagePath, size);
    if s.outcome.Success? {
      CreatedRowIsValid(m, itemType, name, price, description, calories, imagePath, size);
      AppendKeepsStoreValid(m.items, s.outcome.value);
    }
  }

  /**
   * The Drink scenario: size 4 is refused with InvalidSize and changes
   * nothing; size 16 succeeds and `read_item("Coke")['size']` is "16".
   */
  lemma CokeScenario(m: Menu)
    requires "Coke" !in Names(m.items)
    ensures var s := CreateItem(m, "Drink", "Coke", FloatValue(Decimal(299, 2)), "Cola", IntValue(150),
                                "coke.jpg", IntValue(4));
            s.outcome == Failure(InvalidSize) && s.menu == m
    ensures var s := CreateItem(m, "Drink", "Coke", FloatValue(Decimal(299, 2)), "Cola", IntValue(150),
                                "coke.jpg", IntValue(16));
            s.outcome.Success? && ReadItem(s.menu, "Coke").Some? && ReadItem(s.menu, "Coke").value.size == Some("16")
  {
    var s := CreateItem(m, "Drink", "Coke", FloatValue(Decimal(299, 2)), "Cola", IntValue(150),
                        "coke.jpg", IntValue(16));
    assert RealOf(Decimal(299, 2)) > 0.0;
    CreateThenRead(m, "Drink", "Coke", FloatValue(Decimal(299, 2)), "Cola", IntValue(150),
                   "coke.jpg", IntValue(16), "Coke");
    assert NatDigits(16) == "16" by {
      assert NatDigits(1) == "1";
    }
  }

  lemma ParseTwoFifty()
    ensures ParseDecimal("2.50") == Some(Decimal(250, 2))
  {
    assert DotIndex("2.50") == 1;
    assert "2.50"[..1] == "2" && "2.50"[2..] == "50";
    assert "2" + "50" == "250";
    assert "250"[..2] == "25" && "25"[..1] == "2" && "2"[..0] == "";
    assert DigitsValue("2") == 2;
    assert DigitsValue("25") == 25;
    assert DigitsValue("250") == 250;
  }

  lemma ShowTwoFive()
    ensures ShowDecimal(Decimal(250, 2)) == "2.5"
  {
    assert Normalize(Decimal(250, 2)) == Decimal(25, 1);
    assert Pow10(1) == 10;
    assert NatDigits(2) == "2" && NatDigits(5) == "5";
  }

  /** A price given as the text "2.50" is stored as Python prints the float 2.5, that is "2.5". */
  lemma TrailingZeroPrice(m: Menu)
    requires "Soup" !in Names(m.items)
    ensures var s := CreateItem(m, "Entree", "Soup", StrValue("2.50"), "", IntValue(1), "", NoneValue);
            s.outcome.Success? && s.outcome.value.price == Some("2.5")
  {
    ParseTwoFifty();
    ShowTwoFive();
    assert RealOf(Decimal(250, 2)) > 0.0;
  }

  // ---------------------------------------------------------------------
  // update_item

  /** An update keeps the sequence of names, so it keeps names unique. */
  lemma UpdateKeepsNamesUnique(m: Menu, name: string, p: Patch)
    requires UniqueNames(m.items)
    ensures UniqueNames(UpdateItem(m, name, p).menu.items)
  {
    var items := UpdateItem(m, name, p).menu.items;
    assert Names(items) == Names(m.items);
    forall i, j | 0 <= i < j < |items|
      ensures items[i].name != items[j].name
    {
      assert Names(items)[i] == Names(m.items)[i] && Names(items)[j] == Names(m.items)[j];
    }
  }

  /**
   * The `item_type` keyword is validated but never written, because the row
   * key is `type`: any accepted update has the same effect with it left out.
   */
  lemma ItemTypeNeverApplied(m: Menu, name: string, p: Patch)
    requires UpdateItem(m, name, p).outcome.Success?
    ensures UpdateItem(m, name, p.(itemType := None)) == UpdateItem(m, name, p)
  {
  }

  /**
   * `type`, `price` and `calories` are written without validation: any row
   * accepts a price of zero or below, given as an int or a float, stores its
   * `str` text, and then breaks the record invariant.
   */
  lemma UpdateSkipsPriceCheck(m: Menu, name: string, price: Value)
    requires name in Names(m.items)
    requires (price.IntValue? && price.i <= 0) || (price.FloatValue? && RealOf(price.f) <= 0.0)
    ensures var s := UpdateItem(m, name, Patch(None, None, Some(price), None, None, None, None));
            s.outcome.Success? && s.outcome.value.price == StoredText(price) && !RowValid(s.outcome.value)
  {
    var p := Patch(None, None, Some(price), None, None, None, None);
    assert PatchAccepted(ReadItem(m, name).value, p);
    if price.IntValue? {
      assert RealOf(Decimal(price.i, 0)) <= 0.0;
    }
  }

  /** Applying the same keywords a second time changes nothing more. */
  lemma ApplyPatchIdempotent(row: Row, p: Patch)
    ensures ApplyPatch(ApplyPatch(row, p), p) == ApplyPatch(row, p)
  {
  }

  /**
   * Retyping a created Entree as a Drink is accepted, but the row then has a
   * None size, so `get_menu_models` raises TypeError for the whole store.
   */
  lemma RetypeToDrinkBreaksConversion(m: Menu, name: string)
    requires ReadItem(m, name).Some?
    requires ReadItem(m, name).value.kind == Some("Entree") && ReadItem(m, name).value.size.None?
    requires RowValid(ReadItem(m, name).value)
    ensures var s := UpdateItem(m, name, Patch(None, Some(StrValue("Drink")), None, None, None, None, None));
            s.outcome.Success? && GetMenuModels(s.menu).Failure?
  {
    var s := UpdateItem(m, name, Patch(None, Some(StrValue("Drink")), None, None, None, None, None));
    var i := FirstIndex(m.items, name).value;
    var row := s.menu.items[i];
    assert row == s.outcome.value;
    assert ConvertRow(row).Crashed?;
    ConversionAt(s.menu.items, i);
  }

  /**
   * An Entree reloaded from the file has the size "" rather than None. Retyping
   * it as a Drink is accepted too, but `int("")` raises ValueError, which
   * `get_menu_models` catches: the row is dropped and the call succeeds or
   * fails exactly as it did before the update.
   */
  lemma RetypeReloadedEntreeDropsRow(m: Menu, name: string)
    requires ReadItem(m, name).Some?
    requires ReadItem(m, name).value.kind == Some("Entree") && ReadItem(m, name).value.size == Some("")
    requires RowValid(ReadItem(m, name).value)
    ensures var s := UpdateItem(m, name, Patch(None, Some(StrValue("Drink")), None, None, None, None, None));
            && s.outcome.Success?
            && ConvertRow(s.outcome.value).Skipped?
            && (GetMenuModels(s.menu).Success? <==> GetMenuModels(m).Success?)
  {
    var s := UpdateItem(m, name, Patch(None, Some(StrValue("Drink")), None, None, None, None, None));
    var i := FirstIndex(m.items, name).value;
    var row := s.outcome.value;
    assert RowSize(row) == ValueError;
    assert ConvertRow(row).Skipped?;
    ValidRowConverts(m.items[i]);
    assert s.menu.items == m.items[i := row];
    SameCrashes(m.items, i, row);
    SameModelsOutcome(s.menu, m);
  }

  /** `get_menu_models` succeeds on two stores alike when their rows crash at the same places. */
  lemma SameModelsOutcome(a: Menu, b: Menu)
    requires |a.items| == |b.items|
    requires forall j :: 0 <= j < |a.items| ==> (Conversions(a.items)[j].Crashed? <==> Conversions(b.items)[j].Crashed?)
    ensures GetMenuModels(a).Success? <==> GetMenuModels(b).Success?
  {
  }

  /**
   * `update_item` checks a Drink size with `int()`, which accepts a float such
   * as 16.5, but stores its `str` text. `int()` of that text raises ValueError,
   * so `get_menu_models` then skips the Drink, unless its price cell is None:
   * `float(None)` runs first and its TypeError makes the whole call fail.
   */
  lemma FloatSizeDropsDrink(m: Menu, name: string, d: Decimal)
    requires ReadItem(m, name).Some? && ReadItem(m, name).value.kind == Some("Drink")
    requires SizeInRange(FloatValue(d))
    ensures var s := UpdateItem(m, name, Patch(None, None, None, None, None, None, Some(FloatValue(d))));
            && s.outcome.Success?
            && s.outcome.value.size == Some(ShowDecimal(d))
            && (ConvertRow(s.outcome.value).Skipped? <==> !RowPrice(ReadItem(m, name).value).TypeError?)
            && (ConvertRow(s.outcome.value).Crashed? <==> RowPrice(ReadItem(m, name).value).TypeError?)
  {
    FloatTextIsNotInt(d);
  }

  /** Replacing a row that does not crash by another that does not crash leaves every crash where it was. */
  lemma SameCrashes(rows: seq<Row>, i: nat, row: Row)
    requires i < |rows|
    requires !ConvertRow(rows[i]).Crashed? && !ConvertRow(row).Crashed?
    ensures forall j :: 0 <= j < |rows| ==>
              (Conversions(rows[i := row])[j].Crashed? <==> Conversions(rows)[j].Crashed?)
  {
    forall j | 0 <= j < |rows|
      ensures Conversions(rows[i := row])[j].Crashed? <==> Conversions(rows)[j].Crashed?
    {
      ConversionAt(rows[i := row], j);
      ConversionAt(rows, j);
    }
  }

  // ---------------------------------------------------------------------
  // delete_item

  /** Deleting removes one row and leaves the rest in order, so names stay unique. */
  lemma DeleteKeepsNamesUnique(m: Menu, name: string)
    requires UniqueNames(m.items)
    ensures UniqueNames(DeleteItem(m, name).menu.items)
  {
    if name in Names(m.items) {
      RemoveKeepsUnique(m.items, FirstIndex(m.items, name).value);
    }
  }

  /** In a store with unique names, a deleted name is no longer found. */
  lemma DeleteThenRead(m: Menu, name: string)
    requires UniqueNames(m.items)
    ensures ReadItem(DeleteItem(m, name).menu, name).None?
  {
    if name in Names(m.items) {
      RemoveKeepsUnique(m.items, FirstIndex(m.items, name).value);
    }
  }

  lemma RemoveKeepsStoreValid(rows: seq<Row>, k: nat)
    requires StoreValid(rows) && k < |rows|
    ensures StoreValid(rows[..k] + rows[k + 1..])
  {
    RemoveKeepsUnique(rows, k);
    var t := rows[..k] + rows[k + 1..];
    forall i | 0 <= i < |t|
      ensures RowValid(t[i])
    {
      RemoveAtIndex(rows, k, i);
    }
  }

  /** Deleting keeps a well-formed store well-formed. */
  lemma DeleteKeepsStoreValid(m: Menu, name: string)
    requires StoreValid(m.items)
    ensures StoreValid(DeleteItem(m, name).menu.items)
  {
    DeletedRows(m, name);
    if name in Names(m.items) {
      var k := FirstIndex(m.items, name).value;
      RemoveKeepsStoreValid(m.items, k);
      assert DeleteItem(m, name).menu.items == m.items[..k] + m.items[k + 1..];
    }
  }

  /** The rows a delete leaves: all of them when the name is absent, otherwise all but the first match. */
  lemma DeletedRows(m: Menu, name: string)
    ensures name !in Names(m.items) ==> DeleteItem(m, name).menu.items == m.items
    ensures name in Names(m.items) ==>
              var k := FirstIndex(m.items, name).value;
              DeleteItem(m, name).menu.items == m.items[..k] + m.items[k + 1..]
  {
  }

  // ---------------------------------------------------------------------
  // get_menu_models

  /**
   * A well-formed row never makes the conversion raise, and converts exactly
   * when it is not an Appetizer and has a non-empty name, keeping its numbers.
   */
  lemma ValidRowConverts(row: Row)
    requires RowValid(row)
    ensures !ConvertRow(row).Crashed?
    ensures ConvertRow(row).Built? <==> row.kind != Some("Appetizer") && row.name != ""
    ensures ConvertRow(row).Built? ==>
              && ConvertRow(row).item.price == RealOf(ParseDecimal(row.price.value).value)
              && ConvertRow(row).item.calories == ParseInt(row.calories.value).value
              && (row.kind == Some("Drink") ==> ConvertRow(row).item.variant == Drink(ParseInt(row.size.value).value))
  {
  }

  /**
   * When no row raises and no two built items share a name, the collected map
   * holds every built item under its own name.
   */
  lemma CollectDistinct(cs: seq<RowConversion>)
    requires forall i :: 0 <= i < |cs| ==> !cs[i].Crashed?
    requires forall i, j :: 0 <= i < j < |cs| && cs[i].Built? && cs[j].Built? ==> cs[i].item.name != cs[j].item.name
    ensures Collect(cs).Success?
    ensures forall i :: 0 <= i < |cs| && cs[i].Built? ==> Collect(cs).value[cs[i].item.name] == cs[i].item
  {
    var r := Collect(cs).value;
    CollectEntries(cs);
    forall i | 0 <= i < |cs| && cs[i].Built?
      ensures r[cs[i].item.name] == cs[i].item
    {
      var k := cs[i].item.name;
      var i' :| 0 <= i' < |cs| && cs[i'] == Built(r[k]) && r[k].name == k
                && forall j :: i' < j < |cs| ==> !(cs[j].Built? && cs[j].item.name == k);
      assert !(i' < i);
      assert !(i < i');
    }
  }

  /** On a well-formed store no row raises, and exactly the non-Appetizer rows with a name build an item. */
  lemma ValidStoreConversions(rows: seq<Row>)
    requires StoreValid(rows)
    ensures forall i :: 0 <= i < |rows| ==> !Conversions(rows)[i].Crashed?
    ensures forall i :: 0 <= i < |rows| ==>
              (Conversions(rows)[i].Built? <==> rows[i].kind != Some("Appetizer") && rows[i].name != "")
    ensures forall i :: 0 <= i < |rows| && Conversions(rows)[i].Built? ==> Conversions(rows)[i].item.name == rows[i].name
  {
    var cs := Conversions(rows);
    forall i | 0 <= i < |rows|
      ensures !cs[i].Crashed?
      ensures cs[i].Built? <==> rows[i].kind != Some("Appetizer") && rows[i].name != ""
    {
      ConversionAt(rows, i);
      ValidRowConverts(rows[i]);
    }
  }

  /**
   * Collecting the outcomes of rows with distinct names, where exactly the
   * non-Appetizer rows with a name build an item of that name, gives each such
   * row's item under its name.
   */
  lemma CollectCoversRows(rows: seq<Row>, cs: seq<RowConversion>)
    requires |cs| == |rows| && UniqueNames(rows)
    requires forall i :: 0 <= i < |cs| ==> !cs[i].Crashed?
    requires forall i :: 0 <= i < |cs| ==> (cs[i].Built? <==> rows[i].kind != Some("Appetizer") && rows[i].name != "")
    requires forall i :: 0 <= i < |cs| && cs[i].Built? ==> cs[i].item.name == rows[i].name
    ensures Collect(cs).Success?
    ensures forall i :: 0 <= i < |rows| && rows[i].kind != Some("Appetizer") && rows[i].name != "" ==>
              rows[i].name in Collect(cs).value && Collect(cs).value[rows[i].name] == cs[i].item
  {
    CollectDistinct(cs);
  }

  /**
   * On a well-formed store `get_menu_models` succeeds and has an entry for
   * every row that is not an Appetizer and has a non-empty name: the
   * conversion of that row.
   */
  lemma ValidStoreModels(m: Menu)
    requires StoreValid(m.items)
    ensures GetMenuModels(m).Success?
    ensures forall i :: 0 <= i < |m.items| && m.items[i].kind != Some("Appetizer") && m.items[i].name != "" ==>
              && Conversions(m.items)[i].Built?
              && m.items[i].name in GetMenuModels(m).value
              && GetMenuModels(m).value[m.items[i].name] == Conversions(m.items)[i].item
  {
    var cs := Conversions(m.items);
    ValidStoreConversions(m.items);
    CollectCoversRows(m.items, cs);
    assert GetMenuModels(m) == Collect(cs);
  }

  /** Every key collected from outcomes that keep their row's name and skip Appetizers names such a row. */
  lemma CollectOnlyFromRows(rows: seq<Row>, cs: seq<RowConversion>)
    requires |cs| == |rows|
    requires forall i :: 0 <= i < |cs| ==> !cs[i].Crashed?
    requires forall i :: 0 <= i < |cs| ==> (cs[i].Built? <==> rows[i].kind != Some("Appetizer") && rows[i].name != "")
    requires forall i :: 0 <= i < |cs| && cs[i].Built? ==> cs[i].item.name == rows[i].name
    ensures Collect(cs).Success?
    ensures forall k :: k in Collect(cs).value ==>
              exists i :: 0 <= i < |rows| && rows[i].name == k && rows[i].kind != Some("Appetizer") && k != ""
  {
    var r := Collect(cs).value;
    CollectEntries(cs);
    forall k | k in r
      ensures exists i :: 0 <= i < |rows| && rows[i].name == k && rows[i].kind != Some("Appetizer") && k != ""
    {
      var i :| 0 <= i < |cs| && cs[i] == Built(r[k]) && r[k].name == k;
      assert rows[i].name == k;
    }
  }

  /** Conversely, every entry comes from a row that is not an Appetizer and has a non-empty name. */
  lemma ValidStoreModelsOnlyFromRows(m: Menu)
    requires StoreValid(m.items)
    ensures GetMenuModels(m).Success?
    ensures forall k :: k in GetMenuModels(m).value ==>
              exists i :: 0 <= i < |m.items| && m.items[i].name == k && m.items[i].kind != Some("Appetizer") && k != ""
  {
    var cs := Conversions(m.items);
    ValidStoreConversions(m.items);
    CollectOnlyFromRows(m.items, cs);
    assert GetMenuModels(m) == Collect(cs);
  }

  /** A create of a fresh name with accepted arguments appends a well-formed row that reads back as given. */
  lemma CreateFresh(m: Menu, itemType: string, name: string, price: Decimal, description: string,
                    calories: int, imagePath: string, size: Value)
    requires StoreValid(m.items) && name !in Names(m.items)
    requires TypeAndSizeAccepted(itemType, size) && price.mantissa > 0 && calories > 0
    ensures var s := CreateItem(m, itemType, name, FloatValue(price), description, IntValue(calories), imagePath, size);
            && s.outcome.Success? && s.menu.items == m.items + [s.outcome.value]
            && StoreValid(s.menu.items)
            && s.outcome.value.name == name && s.outcome.value.kind == Some(itemType)
            && s.outcome.value.price.Some? && ParseDecimal(s.outcome.value.price.value).Some?
            && RealOf(ParseDecimal(s.outcome.value.price.value).value) == RealOf(price)
            && s.outcome.value.calories == Some(ShowInt(calories))
            && ParseInt(s.outcome.value.calories.value) == Some(calories)
            && (itemType == "Drink" ==> s.outcome.value.size.Some?
                                        && ParseInt(s.outcome.value.size.value) == Some(PyInt(size).v))
  {
    assert PyFloat(FloatValue(price)) == Converted(price);
    CreateKeepsStoreValid(m, itemType, name, FloatValue(price), description, IntValue(calories), imagePath, size);
    CreatedRowReadsBack(m, itemType, name, FloatValue(price), description, IntValue(calories), imagePath, size);
  }

  // ---------------------------------------------------------------------
  // The backing file

  /** After any write of a non-empty store, loading the file gives back its rows, with None cells as "". */
  lemma ReloadAfterWrite(m: Menu, items: seq<Row>)
    requires |items| > 0
    ensures ReadItems(Load(Commit(m, items).file)) == CsvImage(items)
    ensures Names(ReadItems(Load(Commit(m, items).file))) == Names(items)
  {
  }

  /** Writing and reloading keeps a well-formed store well-formed, and reaches a fixed point. */
  lemma CsvImageKeepsStoreValid(rows: seq<Row>)
    requires StoreValid(rows)
    ensures StoreValid(CsvImage(rows))
    ensures CsvImage(CsvImage(rows)) == CsvImage(rows)
  {
    var f := CsvImage(rows);
    forall i, j | 0 <= i < j < |f|
      ensures f[i].name != f[j].name
    {
      assert f[i].name == rows[i].name && f[j].name == rows[j].name;
    }
    forall i | 0 <= i < |f|
      ensures RowValid(f[i])
    {
      assert RowValid(rows[i]);
    }
  }

  /**
   * Deleting the only row leaves the file as it was, because an empty store
   * is never written: reopening the store brings the deleted row back.
   */
  lemma DeletedLastRowReturnsOnReload(m: Menu, row: Row)
    requires m.items == [row] && m.file == Some(CsvImage(m.items))
    ensures var s := DeleteItem(m, row.name);
            && s.outcome.Success? && |s.menu.items| == 0
            && ReadItem(Load(s.menu.file), row.name) == Some(CsvRow(row))
  {
    assert Names(m.items) == [row.name];
    var s := DeleteItem(m, row.name);
    assert Load(s.menu.file).items == [CsvRow(row)];
  }
}

=== FILE: models.dfy ===
/**
 * The typed menu items and the order that collects them. The Python class
 * hierarchy (MenuItem with the Drink, Dessert, Entree and Appetizer
 * subclasses) becomes one record with a variant tag; a Drink's tag carries its
 * size in ounces.
 */
module Models {
  import opened Results
  import opened Numbers

  const MinSize: int := 8
  const MaxSize: int := 44

  /** Which class constructed the item; `Base` is a plain MenuItem. */
  datatype Variant = Base | Entree | Dessert | Appetizer | Drink(size: int)

  datatype Item = Item(variant: Variant, name: string, price: real, description: string,
                       imagePath: string, calories: int)

  /** The ValueError raised by a constructor, by the check that raised it. */
  datatype ItemError = EmptyName | NegativePrice | NegativeCalories | SizeNotInteger | SizeOutOfRange

  /** The invariant every constructed item satisfies. */
  predicate ValidItem(it: Item) {
    && it.name != ""
    && it.price >= 0.0
    && it.calories >= 0
    && (it.variant.Drink? ==> MinSize <= it.variant.size <= MaxSize)
  }

  /** The checks of the MenuItem constructor, in source order, for an item of the given variant. */
  function Construct(variant: Variant, name: string, price: real, description: string,
                     imagePath: string, calories: int): (r: Result<Item, ItemError>)
    ensures name == "" ==> r == Failure(EmptyName)
    ensures name != "" && price < 0.0 ==> r == Failure(NegativePrice)
    ensures name != "" && price >= 0.0 && calories < 0 ==> r == Failure(NegativeCalories)
    ensures r.Success? <==> name != "" && price >= 0.0 && calories >= 0
    ensures r.Success? ==> r.value == Item(variant, name, price, description, imagePath, calories)
  {
    if name == "" then Failure(EmptyName)
    else if price < 0.0 then Failure(NegativePrice)
    else if calories < 0 then Failure(NegativeCalories)
    else Success(Item(variant, name, price, description, imagePath, calories))
  }

  /** `MenuItem(name, price, description, image_path, calories)`. */
  function NewMenuItem(name: string, price: real, description: string, imagePath: string,
                       calories: int): (r: Result<Item, ItemError>)
    ensures r.Success? <==> name != "" && price >= 0.0 && calories >= 0
    ensures name == "" ==> r == Failure(EmptyName)
    ensures name != "" && price < 0.0 ==> r == Failure(NegativePrice)
    ensures name != "" && price >= 0.0 && calories < 0 ==> r == Failure(NegativeCalories)
    ensures r.Success? ==> r.value == Item(Base, name, price, description, imagePath, calories) && ValidItem(r.value)
  {
    Construct(Base, name, price, description, imagePath, calories)
  }

  function NewDessert(name: string, price: real, description: string, calories: int,
                      imagePath: string): (r: Result<Item, ItemError>)
    ensures r.Success? <==> name != "" && price >= 0.0 && calories >= 0
    ensures name == "" ==> r == Failure(EmptyName)
    ensures name != "" && price < 0.0 ==> r == Failure(NegativePrice)
    ensures name != "" && price >= 0.0 && calories < 0 ==> r == Failure(NegativeCalories)
    ensures r.Success? ==> r.value == Item(Dessert, name, price, description, imagePath, calories) && ValidItem(r.value)
  {
    Construct(Dessert, name, price, description, imagePath, calories)
  }

  function NewEntree(name: string, price: real, description: string, calories: int,
                     imagePath: string): (r: Result<Item, ItemError>)
    ensures r.Success? <==> name != "" && price >= 0.0 && calories >= 0
    ensures name == "" ==> r == Failure(EmptyName)
    ensures name != "" && price < 0.0 ==> r == Failure(NegativePrice)
    ensures name != "" && price >= 0.0 && calories < 0 ==> r == Failure(NegativeCalories)
    ensures r.Success? ==> r.value == Item(Entree, name, price, description, imagePath, calories) && ValidItem(r.value)
  {
    Construct(Entree, name, price, description, imagePath, calories)
  }

  function NewAppetizer(name: string, price: real, description: string, calories: int,
                        imagePath: string): (r: Result<Item, ItemError>)
    ensures r.Success? <==> name != "" && price >= 0.0 && calories >= 0
    ensures name == "" ==> r == Failure(EmptyName)
    ensures name != "" && price < 0.0 ==> r == Failure(NegativePrice)
    ensures name != "" && price >= 0.0 && calories < 0 ==> r == Failure(NegativeCalories)
    ensures r.Success? ==> r.value == Item(Appetizer, name, price, description, imagePath, calories) && ValidItem(r.value)
  {
    Construct(Appetizer, name, price, description, imagePath, calories)
  }

  /** `int(size)` succeeds and lies in the Drink class's range. */
  predicate SizeAccepted(size: Value) {
    PyInt(size).Converted? && MinSize <= PyInt(size).v <= MaxSize
  }

  /**
   * `Drink(name, price, description, size, calories, image_path)`: the size is
   * converted with `int()` and range-checked before the MenuItem checks run.
   */
  function NewDrink(name: string, price: real, description: string, size: Value, calories: int,
                    imagePath: string): (r: Result<Item, ItemError>)
    ensures !PyInt(size).Converted? ==> r == Failure(SizeNotInteger)
    ensures PyInt(size).Converted? && !(MinSize <= PyInt(size).v <= MaxSize) ==> r == Failure(SizeOutOfRange)
    ensures r.Success? <==> SizeAccepted(size) && name != "" && price >= 0.0 && calories >= 0
    ensures SizeAccepted(size) && name == "" ==> r == Failure(EmptyName)
    ensures SizeAccepted(size) && name != "" && price < 0.0 ==> r == Failure(NegativePrice)
    ensures SizeAccepted(size) && name != "" && price >= 0.0 && calories < 0 ==> r == Failure(NegativeCalories)
    ensures r.Success? ==> r.value == Item(Drink(PyInt(size).v), name, price, description, imagePath, calories)
                           && ValidItem(r.value)
  {
    match PyInt(size)
    case Converted(n) =>
      if !(MinSize <= n <= MaxSize) then Failure(SizeOutOfRange)
      else Construct(Drink(n), name, price, description, imagePath, calories)
    case _ => Failure(SizeNotInteger)
  }

  /** Rebuilds an item through the constructor of its own class. */
  function Reconstruct(it: Item): Result<Item, ItemError> {
    match it.variant
    case Base => NewMenuItem(it.name, it.price, it.description, it.imagePath, it.calories)
    case Entree => NewEntree(it.name, it.price, it.description, it.calories, it.imagePath)
    case Dessert => NewDessert(it.name, it.price, it.description, it.calories, it.imagePath)
    case Appetizer => NewAppetizer(it.name, it.price, it.description, it.calories, it.imagePath)
    case Drink(n) => NewDrink(it.name, it.price, it.description, IntValue(n), it.calories, it.imagePath)
  }

  /**
   * The constructors accept exactly the valid items and store every field as
   * given: passing an item's own fields to its class rebuilds that item, and
   * fails precisely when the item breaks the invariant.
   */
  lemma ConstructorsAcceptExactlyValidItems(it: Item)
    ensures Reconstruct(it).Success? <==> ValidItem(it)
    ensures Reconstruct(it).Success? ==> Reconstruct(it).value == it
  {
  }

  // ---------------------------------------------------------------------
  // Orders

  /** A Python object reference to a menu item: the identity the list operations compare by. */
  datatype ItemRef = ItemRef(id: nat, item: Item)

  /** An argument to `add_item`/`remove_item`: None, some non-MenuItem object, or a menu item. */
  datatype Arg = NoneArg | OtherArg | ItemArg(ref: ItemRef)

  /**
   * An order: its items in insertion order, the three single-item slots (which
   * no operation fills), and the running total.
   */
  datatype Order = Order(items: seq<ItemRef>, drink: Option<ItemRef>, dessert: Option<ItemRef>,
                         entree: Option<ItemRef>, total: real)

  datatype OrderError = NullItem | NotAMenuItem | EmptyOrder | ItemNotFound

  /** The sum of the prices of a sequence of items. */
  function SumPrices(s: seq<ItemRef>): real {
    if |s| == 0 then 0.0 else SumPrices(s[..|s| - 1]) + s[|s| - 1].item.price
  }

  /** The order invariant: the total is the sum of the item prices. */
  predicate TotalMatches(o: Order) {
    o.total == SumPrices(o.items)
  }

  /** `Order()`. */
  function NewOrder(): (o: Order)
    ensures |o.items| == 0 && o.total == 0.0
    ensures o.drink.None? && o.dessert.None? && o.entree.None?
    ensures TotalMatches(o)
  {
    Order([], None, None, None, 0.0)
  }

  /** `add_item`: rejects None and non-items, otherwise appends and adds the price to the total. */
  function AddItem(o: Order, arg: Arg): (r: Result<Order, OrderError>)
    ensures arg.NoneArg? ==> r == Failure(NullItem)
    ensures arg.OtherArg? ==> r == Failure(NotAMenuItem)
    ensures arg.ItemArg? ==> r.Success?
    ensures r.Success? ==> r.value.items == o.items + [arg.ref]
    ensures r.Success? ==> r.value.total == o.total + arg.ref.item.price
    ensures r.Success? ==> r.value.drink == o.drink && r.value.dessert == o.dessert && r.value.entree == o.entree
    ensures r.Success? && TotalMatches(o) ==> TotalMatches(r.value)
  {
    match arg
    case NoneArg => Failure(NullItem)
    case OtherArg => Failure(NotAMenuItem)
    case ItemArg(x) =>
      var o' := o.(items := o.items + [x], total := o.total + x.item.price);
      assert o'.items[..|o'.items| - 1] == o.items;
      Success(o')
  }

  /** The index of the first occurrence of x in s, when there is one. */
  function FirstOccurrence(s: seq<ItemRef>, x: ItemRef): (r: Option<nat>)
    ensures r.None? <==> x !in s
    ensures r.Some? ==> r.value < |s| && s[r.value] == x && x !in s[..r.value]
  {
    if |s| == 0 then None
    else if s[0] == x then Some(0)
    else match FirstOccurrence(s[1..], x)
      case None => None
      case Some(i) =>
        assert s[1..][..i] == s[1..i + 1];
        Some(i + 1)
  }

  /** Removing the element at i takes its price off the sum. */
  lemma {:induction false} SumPricesRemove(s: seq<ItemRef>, i: nat)
    requires i < |s|
    ensures SumPrices(s[..i] + s[i + 1..]) == SumPrices(s) - s[i].item.price
  {
    var t := s[..i] + s[i + 1..];
    if i == |s| - 1 {
      assert t == s[..|s| - 1];
    } else {
      var s' := s[..|s| - 1];
      SumPricesRemove(s', i);
      assert s'[..i] + s'[i + 1..] == t[..|t| - 1];
      assert t[|t| - 1] == s[|s| - 1];
    }
  }

  /**
   * `remove_item`: rejects an empty order and an absent item, otherwise
   * removes the first occurrence and takes its price off the total.
   */
  function RemoveItem(o: Order, arg: Arg): (r: Result<Order, OrderError>)
    ensures |o.items| == 0 ==> r == Failure(EmptyOrder)
    ensures |o.items| > 0 && !(arg.ItemArg? && arg.ref in o.items) ==> r == Failure(ItemNotFound)
    ensures r.Success? <==> arg.ItemArg? && arg.ref in o.items
    ensures r.Success? ==>
      exists i :: 0 <= i < |o.items| && o.items[i] == arg.ref && arg.ref !in o.items[..i]
                  && r.value.items == o.items[..i] + o.items[i + 1..]
    ensures r.Success? ==> |r.value.items| == |o.items| - 1
    ensures r.Success? ==> r.value.total == o.total - arg.ref.item.price
    ensures r.Success? ==> r.value.drink == o.drink && r.value.dessert == o.dessert && r.value.entree == o.entree
    ensures r.Success? && TotalMatches(o) ==> TotalMatches(r.value)
  {
    if |o.items| == 0 then Failure(EmptyOrder)
    else if !arg.ItemArg? then Failure(ItemNotFound)
    else match FirstOccurrence(o.items, arg.ref)
      case None => Failure(ItemNotFound)
      case Some(i) =>
        SumPricesRemove(o.items, i);
        Success(o.(items := o.items[..i] + o.items[i + 1..], total := o.total - arg.ref.item.price))
  }

  /** Adding an item and then removing it again gives back the order's total. */
  lemma AddThenRemove(o: Order, x: ItemRef)
    ensures AddItem(o, ItemArg(x)).Success?
    ensures RemoveItem(AddItem(o, ItemArg(x)).value, ItemArg(x)).Success?
    ensures RemoveItem(AddItem(o, ItemArg(x)).value, ItemArg(x)).value.total == o.total
    ensures x !in o.items ==> RemoveItem(AddItem(o, ItemArg(x)).value, ItemArg(x)).value.items == o.items
  {
    var o1 := AddItem(o, ItemArg(x)).value;
    assert x in o1.items by { assert o1.items[|o.items|] == x; }
    if x !in o.items {
      var i := FirstOccurrence(o1.items, x).value;
      assert o1.items[..|o.items|] == o.items;
      assert i == |o.items|;
      assert o1.items[..i] + o1.items[i + 1..] == o.items;
    }
  }
}

=== FILE: numbers.dfy ===
/**
 * The Python values the menu layer receives and the conversions it applies to
 * them: `int(x)`, `float(x)` and `str(x)`. A Python float is modelled by the
 * finite decimal its literal denotes, so that `str` and `float` are exact
 * inverses up to the value of the number.
 */
module Numbers {
  import opened Results

  /** The decimal number mantissa / 10^exponent. */
  datatype Decimal = Decimal(mantissa: int, exponent: nat)

  /** A Python argument: None, an int, a float, or a str. */
  datatype Value = NoneValue | IntValue(i: int) | FloatValue(f: Decimal) | StrValue(s: string)

  /** What a Python conversion call does: returns, raises ValueError, or raises TypeError. */
  datatype Conversion<+T> = Converted(v: T) | ValueError | TypeError

  function Pow10(e: nat): (p: nat)
    ensures p >= 1
  {
    if e == 0 then 1 else 10 * Pow10(e - 1)
  }

  /** Euclidean division of a natural number by a positive one. */
  lemma DivMod(a: nat, p: nat)
    requires p >= 1
    ensures 0 <= a / p && 0 <= a % p < p && a == a / p * p + a % p
  {
  }

  /** Quotient and remainder of a natural number by a positive one. */
  datatype QuotRem = QuotRem(q: nat, r: nat)

  function Divide(a: nat, p: nat): (qr: QuotRem)
    requires p >= 1
    ensures qr.r < p && a == qr.q * p + qr.r
  {
    DivMod(a, p);
    QuotRem(a / p, a % p)
  }

  /** The real number a decimal denotes. */
  function RealOf(d: Decimal): (r: real)
    ensures r > 0.0 <==> d.mantissa > 0
    ensures r < 0.0 <==> d.mantissa < 0
  {
    var p := Pow10(d.exponent) as real;
    var r := d.mantissa as real / p;
    assert r * p == d.mantissa as real;
    r
  }

  // ---------------------------------------------------------------------
  // Digit strings

  predicate IsDigit(c: char) {
    '0' <= c <= '9'
  }

  predicate AllDigits(s: string) {
    forall i :: 0 <= i < |s| ==> IsDigit(s[i])
  }

  function DigitChar(n: nat): (c: char)
    requires n < 10
    ensures IsDigit(c)
  {
    ('0' as int + n) as char
  }

  /** The natural number a string of decimal digits denotes (most significant first). */
  function DigitsValue(s: string): nat
    requires AllDigits(s)
  {
    if |s| == 0 then 0
    else 10 * DigitsValue(s[..|s| - 1]) + (s[|s| - 1] as int - '0' as int)
  }

  /** The shortest decimal digit string of n: Python's `str` of a non-negative int. */
  function NatDigits(n: nat): (s: string)
    ensures AllDigits(s) && 1 <= |s|
    ensures n < 10 <==> |s| == 1
    ensures s[0] == '0' <==> n == 0
    ensures s[|s| - 1] == DigitChar(n % 10)
  {
    if n < 10 then [DigitChar(n)] else NatDigits(n / 10) + [DigitChar(n % 10)]
  }

  function Zeros(k: nat): (s: string)
    ensures |s| == k && AllDigits(s)
  {
    if k == 0 then "" else Zeros(k - 1) + "0"
  }

  /** A digit string left-padded with zeros to width w. */
  function Pad(d: string, w: nat): string {
    if |d| >= w then d else Zeros(w - |d|) + d
  }

  /** The digits of n, left-padded with zeros to width w. */
  function PadDigits(n: nat, w: nat): string {
    Pad(NatDigits(n), w)
  }

  lemma {:induction false} NatDigitsValue(n: nat)
    ensures DigitsValue(NatDigits(n)) == n
  {
    if n >= 10 {
      var s := NatDigits(n);
      assert s[..|s| - 1] == NatDigits(n / 10);
      NatDigitsValue(n / 10);
    }
  }

  lemma {:induction false} DigitsValueConcat(a: string, b: string)
    requires AllDigits(a) && AllDigits(b)
    ensures DigitsValue(a + b) == DigitsValue(a) * Pow10(|b|) + DigitsValue(b)
  {
    if |b| == 0 {
      assert a + b == a;
    } else {
      var b' := b[..|b| - 1];
      var d := b[|b| - 1] as int - '0' as int;
      assert (a + b)[..|a + b| - 1] == a + b';
      assert (a + b)[|a + b| - 1] == b[|b| - 1];
      assert b[..|b| - 1] == b';
      DigitsValueConcat(a, b');
      var x := DigitsValue(a);
      var y := DigitsValue(b');
      var p := Pow10(|b'|);
      assert DigitsValue(a + b) == 10 * DigitsValue(a + b') + d;
      assert DigitsValue(b) == 10 * y + d;
      assert Pow10(|b|) == 10 * p;
      MulTen(x, p);
    }
  }

  lemma MulTen(x: int, p: int)
    ensures 10 * (x * p) == x * (10 * p)
  {
  }

  lemma {:induction false} ZerosValue(k: nat)
    ensures DigitsValue(Zeros(k)) == 0
  {
    if k > 0 {
      assert Zeros(k)[..k - 1] == Zeros(k - 1);
      ZerosValue(k - 1);
    }
  }

  /** A number below 10^w has at most w digits. */
  lemma {:induction false} NatDigitsLength(n: nat, w: nat)
    requires 1 <= w && n < Pow10(w)
    ensures |NatDigits(n)| <= w
  {
    if n >= 10 {
      assert n / 10 < Pow10(w - 1);
      if w == 1 {
        assert false;
      } else {
        NatDigitsLength(n / 10, w - 1);
      }
    }
  }

  /** Padding with leading zeros keeps a digit string's value and widens it to at least w. */
  lemma PadValue(d: string, w: nat)
    requires AllDigits(d)
    ensures AllDigits(Pad(d, w))
    ensures |Pad(d, w)| == if |d| >= w then |d| else w
    ensures DigitsValue(Pad(d, w)) == DigitsValue(d)
  {
    if |d| < w {
      LeadingZerosValue(w - |d|, d);
    }
  }

  lemma {:induction false} LeadingZerosValue(k: nat, d: string)
    requires AllDigits(d)
    ensures AllDigits(Zeros(k) + d)
    ensures DigitsValue(Zeros(k) + d) == DigitsValue(d)
  {
    var z := Zeros(k);
    if |d| == 0 {
      assert z + d == z;
      ZerosValue(k);
    } else {
      var d' := d[..|d| - 1];
      assert (z + d)[..|z + d| - 1] == z + d';
      assert (z + d)[|z + d| - 1] == d[|d| - 1];
      LeadingZerosValue(k, d');
    }
  }

  /** Padding a number below 10^w to width w gives exactly w digits with the same value. */
  lemma PadDigitsValue(n: nat, w: nat)
    requires 1 <= w && n < Pow10(w)
    ensures |PadDigits(n, w)| == w && AllDigits(PadDigits(n, w))
    ensures DigitsValue(PadDigits(n, w)) == n
  {
    NatDigitsLength(n, w);
    NatDigitsValue(n);
    PadValue(NatDigits(n), w);
  }

  // ---------------------------------------------------------------------
  // Normal form of a decimal

  /** A decimal with no trailing fractional zero: the shortest decimal for its value. */
  predicate Normal(d: Decimal) {
    d.exponent == 0 || d.mantissa % 10 != 0
  }

  /** Appending a fractional zero does not change a decimal's value. */
  lemma RealOfScale(k: int, e: nat)
    ensures RealOf(Decimal(10 * k, e + 1)) == RealOf(Decimal(k, e))
  {
    var p := Pow10(e) as real;
    assert Pow10(e + 1) as real == 10.0 * p;
    assert (10 * k) as real == 10.0 * (k as real);
    assert (10.0 * (k as real)) / (10.0 * p) == (k as real) / p;
  }

  /** d with its trailing fractional zeros removed. */
  function Normalize(d: Decimal): (n: Decimal)
    ensures Normal(n) && RealOf(n) == RealOf(d)
    ensures n.exponent <= d.exponent
    decreases d.exponent
  {
    if d.exponent > 0 && d.mantissa % 10 == 0 then
      var k := d.mantissa / 10;
      assert d.mantissa == 10 * k;
      RealOfScale(k, d.exponent - 1);
      Normalize(Decimal(k, d.exponent - 1))
    else d
  }

  lemma {:induction false} Pow10Add(a: nat, b: nat)
    ensures Pow10(a + b) == Pow10(a) * Pow10(b)
  {
    if b > 0 {
      Pow10Add(a, b - 1);
      assert Pow10(a + b) == 10 * Pow10(a + b - 1);
      assert Pow10(a) * Pow10(b) == Pow10(a) * (10 * Pow10(b - 1));
    }
  }

  /** Two fractions over positive denominators are equal exactly when their cross products are. */
  lemma RealCross(x: real, y: real, pa: real, pb: real)
    requires pa > 0.0 && pb > 0.0 && x / pa == y / pb
    ensures x * pb == y * pa
  {
    var v := x / pa;
    assert x == v * pa;
    assert y == v * pb;
    assert x * pb == v * (pa * pb);
    assert y * pa == v * (pa * pb);
  }

  lemma IntMulAsReal(m: int, n: int)
    ensures (m * n) as real == (m as real) * (n as real)
  {
  }

  /** Two decimals of equal value have equal cross products of mantissa and scale. */
  lemma RealOfCross(a: Decimal, b: Decimal)
    requires RealOf(a) == RealOf(b)
    ensures a.mantissa * Pow10(b.exponent) == b.mantissa * Pow10(a.exponent)
  {
    RealCross(a.mantissa as real, b.mantissa as real, Pow10(a.exponent) as real, Pow10(b.exponent) as real);
    IntMulAsReal(a.mantissa, Pow10(b.exponent));
    IntMulAsReal(b.mantissa, Pow10(a.exponent));
  }

  lemma Cancel(x: int, y: int, p: int)
    requires p > 0 && x * p == y * p
    ensures x == y
  {
    assert (x - y) * p == 0;
  }

  lemma MulTenMod(x: int)
    ensures (10 * x) % 10 == 0
  {
  }

  /** Of two decimals with equal value, the one with more fractional digits has the mantissa scaled up. */
  lemma ScaledMantissa(a: Decimal, b: Decimal)
    requires RealOf(a) == RealOf(b) && a.exponent <= b.exponent
    ensures b.mantissa == a.mantissa * Pow10(b.exponent - a.exponent)
  {
    var k: nat := b.exponent - a.exponent;
    var pa := Pow10(a.exponent);
    var pk := Pow10(k);
    RealOfCross(a, b);
    Pow10Add(a.exponent, k);
    assert a.mantissa * (pa * pk) == (a.mantissa * pk) * pa;
    Cancel(a.mantissa * pk, b.mantissa, pa);
  }

  /** A multiple of a positive power of ten is a multiple of ten. */
  lemma MulPow10Mod(x: int, k: nat)
    requires k > 0
    ensures (x * Pow10(k)) % 10 == 0
  {
    assert x * Pow10(k) == 10 * (x * Pow10(k - 1));
    MulTenMod(x * Pow10(k - 1));
  }

  lemma NormalUniqueOrdered(a: Decimal, b: Decimal)
    requires Normal(a) && Normal(b) && RealOf(a) == RealOf(b)
    requires a.exponent <= b.exponent
    ensures a == b
  {
    ScaledMantissa(a, b);
    if b.exponent > a.exponent {
      MulPow10Mod(a.mantissa, b.exponent - a.exponent);
    }
    assert b.exponent == a.exponent;
  }

  /** A value has one normal form. */
  lemma NormalUnique(a: Decimal, b: Decimal)
    requires Normal(a) && Normal(b) && RealOf(a) == RealOf(b)
    ensures a == b
  {
    if a.exponent <= b.exponent {
      NormalUniqueOrdered(a, b);
    } else {
      NormalUniqueOrdered(b, a);
    }
  }

  // ---------------------------------------------------------------------
  // str()

  /** Python's `str` of an int: a minus sign for negatives, then the digits without leading zeros. */
  function ShowInt(i: int): (s: string)
    ensures 1 <= |s| && (s[0] == '-' <==> i < 0)
    ensures i < 0 ==> |s| >= 2 && AllDigits(s[1..]) && s[1] != '0'
    ensures i >= 0 ==> AllDigits(s) && (s[0] == '0' <==> i == 0)
    ensures i == 0 ==> s == "0"
  {
    if i < 0 then "-" + NatDigits(-i) else NatDigits(i)
  }

  /** The last digit of a zero-padded digit string is the last digit of the unpadded one. */
  lemma PadLast(d: string, w: nat)
    requires 1 <= |d|
    ensures |Pad(d, w)| >= 1 && Pad(d, w)[|Pad(d, w)| - 1] == d[|d| - 1]
  {
  }

  /** Adding a multiple of ten keeps the last digit. */
  lemma ModTenShift(x: int, r: int)
    ensures (10 * x + r) % 10 == r % 10
  {
  }

  lemma MulTenComm(x: int, y: int)
    ensures x * (10 * y) == 10 * (y * x)
  {
  }

  /** The remainder modulo a positive power of ten ends in the same digit. */
  lemma ModPowTen(a: nat, e: nat)
    requires e > 0
    ensures Divide(a, Pow10(e)).r % 10 == a % 10
  {
    var q := Pow10(e - 1);
    var qr := Divide(a, Pow10(e));
    assert Pow10(e) == 10 * q;
    MulTenComm(qr.q, q);
    assert a == 10 * (q * qr.q) + qr.r;
    ModTenShift(q * qr.q, qr.r);
  }

  lemma NegModTen(m: int)
    ensures (-m) % 10 == 0 <==> m % 10 == 0
  {
  }

  /** The minus sign of a negative number's text. */
  function SignText(negative: bool): string {
    if negative then "-" else ""
  }

  function Abs(m: int): nat {
    if m < 0 then -m else m
  }

  /** Positional decimal text: an optional minus sign, the integer digits, a point, the fractional digits. */
  function PointedText(negative: bool, whole: string, frac: string): string {
    SignText(negative) + (whole + "." + frac)
  }

  /** The text of a normal decimal: sign, integer part, a point, and its fractional digits ("0" when there are none). */
  function ShowNormal(d: Decimal): (s: string)
    requires Normal(d)
  {
    var qr := Divide(Abs(d.mantissa), Pow10(d.exponent));
    var frac := if d.exponent == 0 then "0" else PadDigits(qr.r, d.exponent);
    PointedText(d.mantissa < 0, NatDigits(qr.q), frac)
  }

  /** The text of a normal decimal ends in a non-zero digit, or in ".0" when it has no fractional part. */
  lemma ShowNormalEnd(d: Decimal)
    requires Normal(d)
    ensures |ShowNormal(d)| >= 3
    ensures ShowNormal(d)[0] == '-' <==> d.mantissa < 0
    ensures ShowNormal(d)[|ShowNormal(d)| - 1] == '0' ==> ShowNormal(d)[|ShowNormal(d)| - 2..] == ".0"
  {
    var a := Abs(d.mantissa);
    var qr := Divide(a, Pow10(d.exponent));
    var frac := if d.exponent == 0 then "0" else PadDigits(qr.r, d.exponent);
    if d.exponent > 0 {
      PadLast(NatDigits(qr.r), d.exponent);
      ModPowTen(a, d.exponent);
      NegModTen(d.mantissa);
      assert frac[|frac| - 1] != '0';
    }
    PointedTextEnd(d.mantissa < 0, NatDigits(qr.q), frac);
  }

  /** Sign, length and last characters of a pointed text, in terms of its parts. */
  lemma PointedTextEnd(negative: bool, whole: string, frac: string)
    requires 1 <= |whole| && whole[0] != '-' && 1 <= |frac|
    requires frac[|frac| - 1] == '0' ==> frac == "0"
    ensures var s := PointedText(negative, whole, frac);
            && |s| >= 3
            && (s[0] == '-' <==> negative)
            && (s[|s| - 1] == '0' ==> s[|s| - 2..] == ".0")
  {
    var s := PointedText(negative, whole, frac);
    assert s[|s| - 1] == frac[|frac| - 1];
    if frac == "0" {
      assert s[|s| - 2..] == ".0";
    }
  }

  /**
   * Positional float text as Python prints it: an optional '-', integer digits
   * without a leading zero (a lone "0" aside), a point, and at least one
   * fractional digit. No '+' and no exponent.
   */
  predicate PointedShape(s: string) {
    var start := if |s| > 0 && s[0] == '-' then 1 else 0;
    var k := DotIndex(s);
    && start < k < |s| - 1
    && AllDigits(s[start..k])
    && (s[start] == '0' ==> k == start + 1)
    && AllDigits(s[k + 1..])
  }

  /** The first '.' is at p when s[p] is a point and none comes before it. */
  lemma DotIndexAt(s: string, p: nat)
    requires p < |s| && s[p] == '.'
    requires forall j :: 0 <= j < p ==> s[j] != '.'
    ensures DotIndex(s) == p
  {
  }

  lemma PadAllDigits(d: string, w: nat)
    requires AllDigits(d)
    ensures AllDigits(Pad(d, w))
  {
    if |d| < w {
      var z := Zeros(w - |d|);
      assert forall i :: 0 <= i < |z + d| ==> (z + d)[i] == if i < |z| then z[i] else d[i - |z|];
    }
  }

  /** Digits around a point, with no leading zero in the integer part, have the pointed shape. */
  lemma PointedTextShape(negative: bool, whole: string, frac: string)
    requires 1 <= |whole| && AllDigits(whole) && (whole[0] == '0' ==> |whole| == 1)
    requires 1 <= |frac| && AllDigits(frac)
    ensures PointedShape(PointedText(negative, whole, frac))
  {
    var s := PointedText(negative, whole, frac);
    var start := |SignText(negative)|;
    assert s == SignText(negative) + whole + "." + frac;
    assert forall j :: start <= j < start + |whole| ==> s[j] == whole[j - start];
    assert forall j :: start + |whole| < j < |s| ==> s[j] == frac[j - start - |whole| - 1];
    DotIndexAt(s, start + |whole|);
    assert s[start..start + |whole|] == whole;
    assert s[start + |whole| + 1..] == frac;
  }

  lemma ShowNormalShape(d: Decimal)
    requires Normal(d)
    ensures PointedShape(ShowNormal(d))
  {
    var qr := Divide(Abs(d.mantissa), Pow10(d.exponent));
    if d.exponent > 0 {
      PadAllDigits(NatDigits(qr.r), d.exponent);
      PadLast(NatDigits(qr.r), d.exponent);
    }
    var frac := if d.exponent == 0 then "0" else PadDigits(qr.r, d.exponent);
    PointedTextShape(d.mantissa < 0, NatDigits(qr.q), frac);
  }

  /**
   * Python's `str` of a float: the shortest text that reads back as the same
   * number, so no fractional digit beyond the first is a trailing zero.
   */
  function ShowDecimal(d: Decimal): (s: string)
    ensures |s| >= 3 && (s[0] == '-' <==> RealOf(d) < 0.0)
    ensures s[|s| - 1] == '0' ==> s[|s| - 2..] == ".0"
    ensures PointedShape(s)
  {
    ShowNormalEnd(Normalize(d));
    ShowNormalShape(Normalize(d));
    ShowNormal(Normalize(d))
  }

  /** `int(str(x))` raises ValueError for every float x, even a whole one: its text always has a point. */
  lemma FloatTextIsNotInt(d: Decimal)
    ensures ParseInt(ShowDecimal(d)).None?
  {
    var s := ShowDecimal(d);
    var k := DotIndex(s);
    assert s[k] == '.' && !IsDigit(s[k]);
    assert 1 <= k && s[1..][k - 1] == s[k];
  }

  /** `str(x)` depends on the value of x only, not on how its digits were written. */
  lemma ShowDecimalByValue(a: Decimal, b: Decimal)
    requires RealOf(a) == RealOf(b)
    ensures ShowDecimal(a) == ShowDecimal(b)
  {
    NormalUnique(Normalize(a), Normalize(b));
  }

  // ---------------------------------------------------------------------
  // Parsing text

  /** The index of the first '.' in s, or |s| if there is none. */
  function DotIndex(s: string): (k: nat)
    ensures k <= |s|
    ensures k < |s| ==> s[k] == '.'
    ensures forall j :: 0 <= j < k ==> s[j] != '.'
  {
    if |s| == 0 || s[0] == '.' then 0 else 1 + DotIndex(s[1..])
  }

  predicate IsSign(c: char) {
    c == '-' || c == '+'
  }

  function Signed(negative: bool, n: nat): int {
    if negative then -(n as int) else n
  }

  /** Python's `int` of a str: an optional sign followed by one or more digits. */
  function ParseInt(s: string): (r: Option<int>)
    ensures r.Some? <==> 1 <= |s| && if IsSign(s[0]) then 2 <= |s| && AllDigits(s[1..]) else AllDigits(s)
    ensures r.Some? && r.value < 0 ==> s[0] == '-'
    ensures r.Some? && s[0] == '-' ==> r.value <= 0
  {
    var negative := |s| > 0 && s[0] == '-';
    var body := if |s| > 0 && IsSign(s[0]) then s[1..] else s;
    if |body| > 0 && AllDigits(body) then Some(Signed(negative, DigitsValue(body))) else None
  }

  /**
   * Unsigned decimal text: digits with at most one point and a digit somewhere,
   * read as (digit value, number of fractional digits).
   */
  function ParseUnsigned(body: string): Option<(nat, nat)> {
    var k := DotIndex(body);
    if k == |body| then
      if |body| > 0 && AllDigits(body) then Some((DigitsValue(body), 0)) else None
    else
      var whole := body[..k];
      var frac := body[k + 1..];
      if AllDigits(whole) && AllDigits(frac) && |whole| + |frac| > 0
      then Some((DigitsValue(whole + frac), |frac|))
      else None
  }

  /** Digit text has no point. */
  lemma DigitsHaveNoDot(s: string)
    ensures AllDigits(s) ==> DotIndex(s) == |s|
  {
    if AllDigits(s) && DotIndex(s) < |s| {
      assert IsDigit(s[DotIndex(s)]);
    }
  }

  /**
   * Python's `float` of a str: an optional sign followed by unsigned decimal
   * text. The result has as many fractional digits as the text has after its
   * point, and integer text reads as the same integer.
   */
  function ParseDecimal(s: string): (r: Option<Decimal>)
    ensures r.Some? ==> 1 <= |s|
    ensures r.Some? && r.value.mantissa < 0 ==> s[0] == '-'
    ensures r.Some? && s[0] == '-' ==> r.value.mantissa <= 0
    ensures r.Some? ==> r.value.exponent == if DotIndex(s) < |s| then |s| - 1 - DotIndex(s) else 0
    ensures ParseInt(s).Some? ==> r == Some(Decimal(ParseInt(s).value, 0))
  {
    var negative := |s| > 0 && s[0] == '-';
    var body := if |s| > 0 && IsSign(s[0]) then s[1..] else s;
    DigitsHaveNoDot(body);
    match ParseUnsigned(body)
    case None => None
    case Some((n, e)) => Some(Decimal(Signed(negative, n), e))
  }

  /** `int(str(i)) == i`. */
  lemma ParseShowInt(i: int)
    ensures ParseInt(ShowInt(i)) == Some(i)
  {
    ShowIntParts(i);
    NatDigitsValue(Abs(i));
    ParseIntDigits(i < 0, NatDigits(Abs(i)));
  }

  /** `str(i)` is the sign text followed by the digits of |i|. */
  lemma ShowIntParts(i: int)
    ensures ShowInt(i) == SignText(i < 0) + NatDigits(Abs(i))
    ensures Signed(i < 0, Abs(i)) == i
  {
  }

  /** `int()` of digits, with a '-' in front when negative, is their value with that sign. */
  lemma ParseIntDigits(negative: bool, d: string)
    requires 1 <= |d| && AllDigits(d)
    ensures ParseInt(SignText(negative) + d) == Some(Signed(negative, DigitsValue(d)))
  {
    var s := SignText(negative) + d;
    if negative {
      assert s[0] == '-' && s[1..] == d;
    } else {
      assert s == d && IsDigit(s[0]) && !IsSign(s[0]);
    }
  }

  /** Unsigned text whole.frac reads as the digits of whole and frac, with |frac| fractional digits. */
  lemma ParseUnsignedPointed(whole: string, frac: string)
    requires AllDigits(whole) && AllDigits(frac) && 1 <= |whole| && 1 <= |frac|
    ensures ParseUnsigned(whole + "." + frac) == Some((DigitsValue(whole + frac), |frac|))
  {
    var body := whole + "." + frac;
    assert body[|whole|] == '.';
    assert DotIndex(body) == |whole|;
    assert body[..|whole|] == whole;
    assert body[|whole| + 1..] == frac;
  }

  /** An optional minus sign in front of text that starts with a digit negates what the text reads as. */
  lemma ParseSigned(negative: bool, body: string)
    requires 1 <= |body| && IsDigit(body[0]) && ParseUnsigned(body).Some?
    ensures ParseDecimal(SignText(negative) + body)
         == Some(Decimal(Signed(negative, ParseUnsigned(body).value.0), ParseUnsigned(body).value.1))
  {
    var s := SignText(negative) + body;
    if negative {
      assert s[0] == '-' && s[1..] == body;
    } else {
      assert s == body;
    }
  }

  /** Text of the form [-]whole.frac parses to the decimal whose digits are whole and frac. */
  lemma ParsePointed(negative: bool, whole: string, frac: string)
    requires AllDigits(whole) && AllDigits(frac) && 1 <= |whole| && 1 <= |frac|
    ensures ParseDecimal(PointedText(negative, whole, frac))
         == Some(Decimal(Signed(negative, DigitsValue(whole + frac)), |frac|))
  {
    ParseUnsignedPointed(whole, frac);
    ParseSigned(negative, whole + "." + frac);
  }

  /** A whole number prints its integer digits and ".0". */
  lemma ShowWhole(d: Decimal)
    requires d.exponent == 0
    ensures ShowNormal(d) == PointedText(d.mantissa < 0, NatDigits(Abs(d.mantissa)), "0")
  {
    assert Pow10(d.exponent) == 1;
    assert Divide(Abs(d.mantissa), 1).q == Abs(d.mantissa);
  }

  /** Appending a zero digit multiplies the value by ten. */
  lemma AppendZero(whole: string)
    requires AllDigits(whole)
    ensures AllDigits(whole + "0") && DigitsValue(whole + "0") == 10 * DigitsValue(whole)
  {
    var s := whole + "0";
    assert s[..|s| - 1] == whole;
  }

  /** A whole number prints one fractional zero, which float() reads back. */
  lemma ParseShowWhole(d: Decimal)
    requires d.exponent == 0
    ensures ParseDecimal(ShowNormal(d)) == Some(Decimal(10 * d.mantissa, 1))
  {
    var whole := NatDigits(Abs(d.mantissa));
    ShowWhole(d);
    ParsePointed(d.mantissa < 0, whole, "0");
    AppendZero(whole);
    NatDigitsValue(Abs(d.mantissa));
    assert Signed(d.mantissa < 0, 10 * Abs(d.mantissa)) == 10 * d.mantissa;
  }

  /** The digits of q followed by the e padded digits of r < 10^e spell q * 10^e + r. */
  lemma SplitDigitsValue(q: nat, r: nat, e: nat)
    requires e > 0 && r < Pow10(e)
    ensures AllDigits(NatDigits(q) + PadDigits(r, e)) && |PadDigits(r, e)| == e
    ensures DigitsValue(NatDigits(q) + PadDigits(r, e)) == q * Pow10(e) + r
  {
    NatDigitsValue(q);
    PadDigitsValue(r, e);
    DigitsValueConcat(NatDigits(q), PadDigits(r, e));
  }

  lemma ParseShowFraction(d: Decimal)
    requires Normal(d) && d.exponent > 0
    ensures ParseDecimal(ShowNormal(d)) == Some(d)
  {
    var qr := Divide(Abs(d.mantissa), Pow10(d.exponent));
    var whole, frac := NatDigits(qr.q), PadDigits(qr.r, d.exponent);
    assert ShowNormal(d) == PointedText(d.mantissa < 0, whole, frac);
    SplitDigitsValue(qr.q, qr.r, d.exponent);
    assert DigitsValue(whole + frac) == Abs(d.mantissa) && |frac| == d.exponent;
    ParsePointed(d.mantissa < 0, whole, frac);
    assert Signed(d.mantissa < 0, Abs(d.mantissa)) == d.mantissa;
  }

  /**
   * `float(str(x))` has the value of x: it is the normal form of x, written
   * with one fractional zero when x is a whole number.
   */
  lemma ParseShowDecimal(d: Decimal)
    ensures var n := Normalize(d);
            ParseDecimal(ShowDecimal(d)) == Some(if n.exponent == 0 then Decimal(10 * n.mantissa, 1) else n)
    ensures ParseDecimal(ShowDecimal(d)).Some? && RealOf(ParseDecimal(ShowDecimal(d)).value) == RealOf(d)
  {
    var n := Normalize(d);
    if n.exponent == 0 {
      ParseShowWhole(n);
      RealOfScale(n.mantissa, 0);
    } else {
      ParseShowFraction(n);
    }
  }

  // ---------------------------------------------------------------------
  // int() and float() of an arbitrary argument

  /** Python's `int` of a float: truncation toward zero. */
  function Truncate(d: Decimal): (r: int)
    ensures 0 <= d.mantissa ==> 0 <= r && r * Pow10(d.exponent) <= d.mantissa < (r + 1) * Pow10(d.exponent)
    ensures d.mantissa < 0 ==> r <= 0 && (r - 1) * Pow10(d.exponent) < d.mantissa <= r * Pow10(d.exponent)
  {
    var p := Pow10(d.exponent);
    var a: nat := if d.mantissa >= 0 then d.mantissa else -d.mantissa;
    DivMod(a, p);
    var q := a / p;
    assert q * p <= a < (q + 1) * p;
    if d.mantissa >= 0 then q else -q
  }

  /** Python's `int(v)`. */
  function PyInt(v: Value): (r: Conversion<int>)
    ensures v.IntValue? ==> r == Converted(v.i)
    ensures v.FloatValue? ==> r == Converted(Truncate(v.f))
    ensures v.StrValue? ==> (r.Converted? <==> ParseInt(v.s).Some?)
    ensures v.StrValue? && r.Converted? ==> ParseInt(v.s) == Some(r.v)
    ensures v.NoneValue? <==> r.TypeError?
    ensures r.ValueError? <==> v.StrValue? && ParseInt(v.s).None?
  {
    match v
    case NoneValue => TypeError
    case IntValue(i) => Converted(i)
    case FloatValue(d) => Converted(Truncate(d))
    case StrValue(s) => if ParseInt(s).Some? then Converted(ParseInt(s).value) else ValueError
  }

  /** Python's `float(v)`. */
  function PyFloat(v: Value): (r: Conversion<Decimal>)
    ensures v.IntValue? ==> r.Converted? && RealOf(r.v) == v.i as real
    ensures v.FloatValue? ==> r == Converted(v.f)
    ensures v.StrValue? ==> (r.Converted? <==> ParseDecimal(v.s).Some?)
    ensures v.StrValue? && r.Converted? ==> ParseDecimal(v.s) == Some(r.v)
    ensures v.NoneValue? <==> r.TypeError?
    ensures r.ValueError? <==> v.StrValue? && ParseDecimal(v.s).None?
  {
    match v
    case NoneValue => TypeError
    case IntValue(i) => Converted(Decimal(i, 0))
    case FloatValue(d) => Converted(d)
    case StrValue(s) => if ParseDecimal(s).Some? then Converted(ParseDecimal(s).value) else ValueError
  }

  /** Python's `str(v)` applied to ints and floats only, as the store does before writing a value. */
  function StoredText(v: Value): (r: Option<string>)
    ensures v.NoneValue? <==> r.None?
    ensures v.StrValue? ==> r == Some(v.s)
    ensures v.IntValue? ==> r == Some(ShowInt(v.i))
    ensures v.FloatValue? ==> r == Some(ShowDecimal(v.f))
    ensures v.IntValue? ==> r.Some? && ParseInt(r.value) == Some(v.i) && ParseDecimal(r.value) == Some(Decimal(v.i, 0))
    ensures v.FloatValue? ==> r.Some? && ParseDecimal(r.value).Some? && RealOf(ParseDecimal(r.value).value) == RealOf(v.f)
  {
    match v
    case NoneValue => None
    case IntValue(i) => ParseShowInt(i); Some(ShowInt(i))
    case FloatValue(d) => ParseShowDecimal(d); Some(ShowDecimal(d))
    case StrValue(s) => Some(s)
  }
}

=== FILE: results.dfy ===
/** Failure-carrying wrappers shared by the whole model. */
module Results {

  /** A value that may be absent: Python's `None` versus a present value. */
  datatype Option<+T> = None | Some(value: T) {

    /** The present value, or `default` when absent. */
    function GetOr(default: T): T {
      match this
      case Some(v) => v
      case None => default
    }
  }

  /** The outcome of an operation that either returns a value or raises an error. */
  datatype Result<+T, +E> = Success(value: T) | Failure(error: E)
}
